=== FILE: README.md ===
# Soul Reaper economy ledger, in Dafny

This project models the in-memory economy behind the bot's chat commands in
`main.py`. With the chat I/O removed, each command is a short, deterministic
update of the bot's global dictionaries:

- `user_data`: the accounts;
- `active_offers`: open or locked betting offers;
- `offer_results`: settled offers;
- `economy_frozen`: the freeze flag;
- `shop_items`: the shop catalogue.

The files:

- `model.dfy` (module `Model`): the entities. An account, an offer, a bet,
  a bet reference, a shop item, the ten ranks, the two currencies, and the
  replies (`Ok` or one error kind per message the bot sends back).
- `text.dfy` (module `Text`): the Python string operations the commands rely on:
  - `str.strip()` with Python's `isspace` set;
  - `str.lower()` on ASCII letters;
  - `str.split(sep, 1)`;
  - `int()` in base 10, with `int(str(n)) == n` proved.
- `sums.dfy` (module `Sums`): sums over finite key sets. They state the
  running-total invariants and money conservation.
- `accounts.dfy` (module `Accounts`): account arithmetic as functions from the
  accounts map to a new map and a reply:
  - lazy account creation;
  - the clamped admin adjustments and the mass adjustment;
  - the level-to-rank ladder;
  - battle power and level-up;
  - the fee-taking transfer;
  - the battle stake.
- `betting.dfy` (module `Betting`): the fixed-odds betting ledger as functions
  on a `State` value:
  - the offer registry: create, lock, unlock;
  - placing and cancelling bets;
  - settlement.

  It also defines the ledger invariant `Valid`:
  - offers are well formed;
  - per-team totals and counts equal the sums over the bets;
  - every stored return matches the payout formula;
  - every bettor has an account;
  - every account holds exactly one reference per active bet.

  Lemmas show that every command preserves `Valid`, and prove the properties
  the commands promise.
- `shop.dfy` (module `Shop`): the catalogue and its three admin commands. Each
  command starts by reseeding an empty catalogue with the six default items.
- `economy.dfy` (module `Bot`): class `Economy`. Its fields are the bot's
  global dictionaries, and it has one method per command that changes them.
  The account and offer commands update the fields as the bot does:
  - a chain of checks, each giving its refusal, then one assignment of the new
    accounts and offers;
  - `end_offer`'s loop over the accounts;
  - `massadd`'s loop over the accounts;
  - field-by-field level-up;
  - `battle`'s transfer between the two fighters, then the winner's level check.

  The shop methods reseed the catalogue in place, then assign the catalogue
  that the matching `Shop` function returns.

  Each method's postcondition says its new state (and reply) equals the
  matching command function applied to the old state. `Economy.Valid()`
  combines the ledger invariant with positive shop prices and stock. The
  `...KeepsValid` lemmas cover every command function: the offer and bet
  commands, settlement, the account commands and the shop commands.
  `Shop.InitShopSpec` covers the reseeding, and the freeze flag is not part of
  the invariant. With the method postconditions, these lemmas show that every
  method preserves `Valid()`.

Inputs from the outside world become parameters:

- user ids and display names;
- whether the target is a bot;
- the current time, as an opaque `Timestamp`;
- the answer to a confirmation prompt, as a boolean;
- the two battle rolls.

## Model

| member | source | states |
|---|---|---|
| Model.ParseCurrency | main.py:1009-1011 | Only the two names `reiatsu` and `soul_fragments` are accepted, each naming its own currency; every other string is refused |
| Model.RankIndex | main.py:64-67 | A rank's position in the rank list is below 10, and it is 0 only for Academy Student |
| Text.TrimStart | main.py:1779-1781 | Leading whitespace is removed: the result is a suffix of the input, everything cut is whitespace, and the result does not start with whitespace |
| Text.TrimEnd | main.py:1779-1781 | Trailing whitespace is removed: the result is a prefix of the input, everything cut is whitespace, and the result does not end with whitespace |
| Text.Strip | main.py:1779-1781 | `strip()` never lengthens its input, and what it leaves neither starts nor ends with whitespace |
| Text.StripSlice | main.py:1779-1781 | `strip()` returns a contiguous slice of its input, and only whitespace lies outside the slice |
| Text.StripIdempotent | main.py:1779-1781 | Stripping twice is the same as stripping once |
| Text.Lower | main.py:1874-1875 | Lower-casing keeps the length and maps each character on its own |
| Text.LowerIdempotent | main.py:1874-1875 | Lower-casing twice is the same as lower-casing once |
| Text.SplitOnce | main.py:1779-1780 | The two parts, joined by the separator, give back the input, and the first part contains no separator |
| Text.ParseInt | main.py:1861-1869 | `int()` reads a plain run of decimal digits as its decimal value, and a negative result needs a leading minus sign after the whitespace |
| Text.ParseShowInt | main.py:1861-1869 | `int(str(n)) == n` for every integer, negative numbers included |
| Accounts.InitUser | main.py:70-89 | Adds exactly the given id to the accounts: a new id gets the default account, and every existing account is kept as it is |
| Accounts.ClampedAdd | main.py:434-438 | The adjusted balance is never negative; it is the exact sum unless that sum would be negative, in which case it is 0 |
| Accounts.Adjust | main.py:478-481 | Only the chosen currency's balance changes, and it becomes the clamped sum |
| Accounts.AddCurrency | main.py:428-494 | `adreiatsu`/`adfragments` create the target account and leave every other account alone. The target's balance in the chosen currency becomes the clamped sum: the old balance (5000 reiatsu for a new account) plus the delta, or 0 if that is negative. The other currency and every other field are kept |
| Accounts.AdjustAll | main.py:1036-1040 | The same accounts remain; each one's balance in the chosen currency becomes the clamped sum, and the other currency and every other field are kept |
| Accounts.MassAdd | main.py:1005-1053 | An unknown currency is refused, then a declined confirmation cancels, both leaving the accounts unchanged. Otherwise every account is adjusted by the same delta, clamped at zero, and no account is added or removed |
| Accounts.RankForLevel | main.py:510-525 | Levels 50 and above give Captain Commander, levels 10 and above give at least 10th Seat, and below 10 the rank is kept |
| Accounts.RankForLevelMonotone | main.py:510-525 | From level 10 up, a higher level never gives a lower rank |
| Accounts.SetLevel | main.py:496-539 | Refused exactly when the level is below 1, with nothing changed. Otherwise the account is created if needed and gets that level, zero experience and the rank the ladder gives for the level from its old rank. Every other field of it, and every other account, is kept |
| Accounts.BattlePower | main.py:2327-2332 | Power is ten per level plus a bonus between 0 and 90 in steps of 5. The bonus reaches 5 × rank index + 45 exactly when the account has both a Zanpakuto and a Stand |
| Accounts.LevelUp | main.py:2334-2348 | Levels up exactly when experience is at least 100: one level more and experience reset. An Academy Student becomes an Unseated Officer exactly when the new level is at least 10, and an Unseated Officer becomes 20th Seat exactly when it is at least 20. Every other rank is kept, nothing else changes, and below 100 nothing changes at all |
| Bot.Economy.CheckLevelUp | main.py:2334-2348 | Updates the account field by field in place; the new account and the returned flag are `LevelUp`'s, and no other field of the economy changes |
| Accounts.TransferFee | main.py:2453-2454 | The fee is at least 1 and never more than a positive amount. From 20 up it is the amount divided by 20, rounded down; below 40 it is 1 |
| Accounts.Give | main.py:2433-2469 | A bot or self target is refused first, then a non-positive amount, both with no change. Then, after both accounts are created, insufficient funds are refused with only those accounts added. Accepted exactly when all checks pass: the sender loses the amount, the receiver gains the amount minus the fee, and the pair loses exactly the fee. No other field and no other account changes |
| Accounts.BattleStake | main.py:2288-2289 | The stake is a tenth of the smaller balance, rounded down, once that balance is at least 1010, and 100 below that. So it is at least 100, and it is no more than either balance when both are at least 100 |
| Accounts.Winner | main.py:2262-2278 | The winner is one of the two fighters |
| Accounts.Fight | main.py:2288-2296 | The winner takes the stake from the loser. The winner's win count goes up by one and its experience by 25, and the loser's experience goes up by 10. No other field and no other account changes |
| Accounts.Battle | main.py:2220-2325 | A missing, bot or self opponent is refused with nothing changed. An accepted battle keeps every existing account, and it keeps every account's bet references (new accounts start with none) |
| Accounts.BattleChecks | main.py:2220-2325 | The only refusals are an invalid target, too small a balance and a declined challenge. The last two leave only the two accounts created. The battle is fought exactly when the opponent is valid, both balances are at least 100 and the challenge is accepted |
| Accounts.Duel | main.py:2262-2321 | A fought battle changes no account but the two fighters', keeps the set of accounts, and leaves every account's bet references as they were |
| Accounts.BattleTransfer | main.py:2233-2321 | An accepted battle required both balances to be at least 100. The winner gains exactly the stake and the loser pays it, so their sum is unchanged and the loser stays non-negative. The winner wins one more battle, and its 25 experience points are added and then run through the level check: at 100 the level goes up by one and the experience restarts at 0, an Academy Student reaching level 10 becomes an Unseated Officer, an Unseated Officer reaching level 20 becomes 20th Seat, and any other rank is kept. The loser gains 10 experience. No other field of either fighter changes |
| Accounts.BattleTouchesOnlyFighters | main.py:2288-2296 | A battle changes no account but the two fighters' |
| Betting.PotentialReturn | main.py:1430-1431 | A winning bet returns at least its stake |
| Betting.PotentialReturnRounding | main.py:1430-1431 | The profit part is the exact profit `amount * pct / 100` rounded down |
| Betting.ResolveTeam | main.py:1394-1408 | A choice means team 1 iff its lower-case form is `1`, `team1` or team 1's lower-case label. It means team 2 iff it means team 1 in none of those ways and is `2`, `team2` or team 2's label. Every other choice is refused |
| Betting.ResolveTeamIgnoresCase | main.py:1394-1408 | The choice is read without regard to ASCII letter case |
| Betting.ResolveTeamByLabel | main.py:1398-1408 | A team 1 label always picks team 1. A team 2 label picks team 2 iff it is not also a spelling of team 1, so labels that collide go to team 1 |
| Betting.StripMatch | main.py:1581-1584 | Filtering a reference list leaves no entry for the match and never makes the list longer |
| Betting.RefCountStrip | main.py:1581-1584 | Filtering out a match removes all of its references and keeps the count of every other match |
| Betting.RefundDebit | main.py:1434-1457 | Refunding a debit gives back exactly the account, for an account that had no reference to the match |
| Betting.WithoutWithBet | main.py:1443-1448 | Taking out a bet just recorded gives back the offer, totals and count included |
| Betting.WithBetTallied | main.py:1443-1448 | Recording a bet keeps each team total equal to the sum of that team's stakes, and the count equal to the number of bets |
| Betting.WithoutBetTallied | main.py:1572-1580 | Removing a bet keeps each team total equal to the sum of that team's stakes, and the count equal to the number of bets |
| Betting.Valid | main.py:1145-1158 | The ledger invariant: every active offer is keyed by its id, has a non-negative percentage, is not completed and has a lock time exactly when locked. Its totals and count equal the sums over its bets, and each bet is at least 100 with the return the payout formula gives. Every bettor has an account, every settled offer is completed, and each account holds exactly one reference per active offer it has bet on |
| Betting.EmptyValid | main.py:41-50 | The empty ledger satisfies the ledger invariant |
| Betting.AccountUpdateKeepsValid | main.py:70-89 | Creating accounts, and changing accounts without touching their bet references, keeps the ledger invariant |
| Betting.InitUserKeepsValid | main.py:70-89 | Creating an account keeps the ledger invariant |
| Betting.AddCurrencyKeepsValid | main.py:428-494 | The single-account adjustments keep the ledger invariant |
| Betting.MassAddKeepsValid | main.py:1036-1040 | The mass adjustment keeps the ledger invariant |
| Betting.SetLevelKeepsValid | main.py:496-539 | Setting a level keeps the ledger invariant |
| Betting.LevelUpKeepsValid | main.py:2334-2348 | The level check keeps the ledger invariant |
| Betting.GiveKeepsValid | main.py:2433-2469 | A transfer, accepted or refused, keeps the ledger invariant |
| Betting.BattleKeepsValid | main.py:2220-2325 | A battle, accepted or refused, keeps the ledger invariant |
| Betting.CreateOffer | main.py:1130-1183 | A negative percentage is refused first. A duplicate id is refused exactly when the percentage is not negative and the id is already open. Both refusals change nothing. Otherwise exactly one new open offer with the given teams and percentage is added, with no bets and zero totals and count |
| Betting.LockOffer | main.py:1185-1218 | A missing id is refused. Accepted exactly for an open offer, which becomes locked with its lock time; a refusal changes nothing |
| Betting.UnlockOffer | main.py:1220-1254 | A missing id is refused. Accepted exactly for a locked offer, which reopens and drops its lock time; a refusal changes nothing |
| Betting.CreateOfferKeepsValid | main.py:1145-1158 | Creating an offer keeps the ledger invariant |
| Betting.LockOfferKeepsValid | main.py:1204-1205 | Locking keeps the ledger invariant |
| Betting.UnlockOfferKeepsValid | main.py:1239-1241 | Unlocking keeps the ledger invariant |
| Betting.PlaceBet | main.py:1353-1474 | A bet never changes the settled offers or the freeze flag. It is refused with `Frozen` exactly when the economy is frozen, and a frozen refusal changes nothing. Any other refusal changes nothing except creating the bettor's account |
| Betting.PlaceBetAccepted | main.py:1356-1427 | A bet is accepted iff every check passes: not frozen, the offer exists and is open, the team resolves, the amount is at least 100, the balance covers it, and the user has no bet on the offer yet |
| Betting.PlaceBetEffect | main.py:1430-1457 | Accepting a bet takes exactly the stake from the bettor, leaving the balance non-negative, and appends exactly one reference with the stored return. It records the bet and adds the stake to the chosen team's total and one to the count. No other field of the account or the offer changes, and neither does any other account or offer |
| Betting.PlaceBetKeepsValid | main.py:1434-1457 | Placing a bet, accepted or refused, keeps the ledger invariant, including totals equal to the sums of the stakes |
| Betting.DeleteBet | main.py:1542-1596 | A cancellation never changes the settled offers or the freeze flag. It is accepted iff the offer exists, the user has a bet on it and the offer is open. A refusal changes nothing but creating the user's account |
| Betting.DeleteBetEffect | main.py:1572-1586 | Cancelling returns the stake and removes every reference to the match, keeping the references to other matches. It takes the bet out of the offer and the stake out of its team's total, and the count goes down by one. No other field of the account or the offer changes, and neither does any other account or offer |
| Betting.DeleteBetKeepsValid | main.py:1572-1586 | Cancelling a bet keeps the ledger invariant |
| Betting.PlaceThenDeleteRestores | main.py:1353-1596 | In a ledger whose references match its bets, cancelling an accepted bet succeeds. It gives back exactly the ledger before the bet, apart from the bettor's newly created account |
| Betting.PlaceBetConservesMoney | main.py:1434-1448 | Placing a bet moves the stake from the balances into the offers' pools; balances plus pools are unchanged |
| Betting.DeleteBetConservesMoney | main.py:1572-1580 | Cancelling a bet moves the stake back from the pool; balances plus pools are unchanged |
| Betting.SecondBetRefused | main.py:1425-1427 | After an accepted bet, every further bet by the same user on the same offer is refused, whatever the team or amount. It is refused as a duplicate when the other checks pass |
| Betting.LockedOfferRefusesBets | main.py:1376-1392 | After a lock, every bet on that offer is refused: as frozen if the economy is frozen, otherwise as locked |
| Betting.UnlockedOfferAcceptsBets | main.py:1220-1254 | After an unlock, a bet that passes the other checks is accepted |
| Betting.SettleAccount | main.py:1623-1658 | A bettor's references to the match are dropped. A winning bettor is paid the stored return and credited its profit as winnings; a losing bettor's balance and winnings are unchanged. Nothing else in the account changes, and non-bettors are untouched |
| Betting.SettleAll | main.py:1623-1658 | Settlement keeps the account set and leaves non-bettors untouched. Every bettor loses its references to the match; a winning bettor gains the bet's stored return, and a losing bettor's balance is unchanged |
| Betting.EndOffer | main.py:1598-1708 | A missing id is refused first, then a winning team other than 1 or 2, both with nothing changed. An accepted settlement does not check the status. It moves the offer, marked completed with its time and winner, from the active offers to the results, and keeps the account set |
| Betting.EndOfferSettles | main.py:1623-1658 | Every account is settled against the offer's bets and winning team; bettors without an account get nothing |
| Betting.EndOfferKeepsValid | main.py:1610-1705 | Settlement keeps the ledger invariant |
| Betting.SettledOfferIsGone | main.py:1602-1604 | After a settlement, a second settlement, a lock and a bet on that id are all refused as not found |
| Betting.EndOfferPayout | main.py:1623-1658 | Settlement adds to the balances exactly the sum of the winning returns of bettors with accounts, and empties the offer's pool from the escrow |
| Betting.EndOfferPaysEveryWinner | main.py:1623-1658 | In a valid ledger, every winning bet is paid: the balances grow by the sum of all winning returns |
| Betting.SettledIdCanBeReused | main.py:1136-1142 | Only active ids are checked, so a settled id can be offered and settled again, and the results then record the new offer |
| Shop.DefaultShopKeys | main.py:92-151 | The defaults are the six catalogue items |
| Shop.DefaultShopValid | main.py:92-151 | Every default item has a positive price and positive stock |
| Shop.InitShopSpec | main.py:92-151 | Reseeding never leaves the catalogue empty, never changes a non-empty one, is idempotent, and keeps prices and stock positive |
| Shop.AddItem | main.py:1754-1811 | Refuses, in order, a taken id, text without `\|`, an unknown currency, and a non-positive price or stock, each with nothing changed. Each refusal's reply holds exactly when its own check fails and every earlier check passes. Accepted exactly when all checks pass, adding one purchasable item with the given price, currency and stock and changing nothing else |
| Shop.AddItemText | main.py:1779-1794 | The added name and description are the stripped text on either side of the first `\|`; the name never contains a `\|` |
| Shop.EditItem | main.py:1838-1893 | Refuses an unknown id, a field outside the six editable ones, a price or stock that is not a positive integer, and an unknown currency, each with nothing changed. Accepted exactly when every check passes, and an accepted edit changes that item only |
| Shop.EditItemEffect | main.py:1861-1880 | An accepted edit sets exactly the named field and records its time and author. The new value is the parsed integer for price and stock, the named currency, whether the lower-cased answer is a yes-word, or the text as given. Every other field keeps its value |
| Shop.EditPriceReadsBack | main.py:1861-1880 | Editing a price in with a positive number written in decimal succeeds and sets exactly that price |
| Shop.PurchasableIgnoresCase | main.py:1874-1875 | The purchasable answer is read without regard to ASCII letter case |
| Shop.RemoveItem | main.py:1813-1836 | Refused iff the id is unknown, with nothing changed. Otherwise exactly that item is gone and every other item is kept |
| Shop.AddThenRemove | main.py:1754-1836 | Removing an item just added gives back the catalogue it was added to |
| Shop.RemovingLastItemReseeds | main.py:92-93 | Removing the last item empties the catalogue, and the next shop command finds the six defaults again |
| Shop.AddItemKeepsValid | main.py:1774-1777 | Adding keeps every price and stock positive |
| Shop.EditItemKeepsValid | main.py:1861-1869 | Editing keeps every price and stock positive |
| Shop.RemoveItemKeepsValid | main.py:1813-1836 | Removing keeps every price and stock positive |
| Bot.SettleBets | main.py:1623-1658 | The loop settles every account exactly as `SettleAccount` does, whatever order it visits them in |
| Bot.AdjustAll | main.py:1036-1040 | The loop adjusts every account's balance exactly as `Adjust` does, clamped at zero, whatever order it visits them in |
| Bot.Economy.constructor | main.py:41-50 | The economy starts empty and unfrozen, which satisfies the invariant |
| Bot.Economy.InitUser | main.py:70-89 | In-place `init_user`; only the accounts change |
| Bot.Economy.SetFrozen | main.py:910-937 | `freeze` and `unfreeze` set the flag and change nothing else |
| Bot.Economy.NewOffer | main.py:1130-1183 | In-place `newoffer`: the new ledger and the reply are those of `CreateOffer`, and the shop is untouched |
| Bot.Economy.LockOffer | main.py:1185-1218 | In-place `lockoffer`, equal to `Betting.LockOffer` |
| Bot.Economy.UnlockOffer | main.py:1220-1254 | In-place `unlockoffer`, equal to `Betting.UnlockOffer` |
| Bot.Economy.PlaceBet | main.py:1353-1474 | In-place `bet`: the frozen check returns early, then a chain of checks ends in one assignment of the new accounts and offers. The new ledger and the reply equal `Betting.PlaceBet` |
| Bot.Economy.DeleteBet | main.py:1542-1596 | In-place `deletebet`, equal to `Betting.DeleteBet` |
| Bot.Economy.EndOffer | main.py:1598-1708 | In-place `result`: the loop over the accounts, then the move to the results. The new ledger and the reply equal `Betting.EndOffer` |
| Bot.Economy.AddCurrency | main.py:428-494 | In-place `adreiatsu`/`adfragments`, equal to `Accounts.AddCurrency`; nothing else changes |
| Bot.Economy.MassAdd | main.py:1005-1053 | In-place `massadd`, equal to `Accounts.MassAdd`; nothing else changes |
| Bot.Economy.SetLevel | main.py:496-539 | In-place `setlevel`, equal to `Accounts.SetLevel` |
| Bot.Economy.Give | main.py:2433-2469 | In-place `give`, equal to `Accounts.Give` |
| Bot.Economy.Battle | main.py:2220-2325 | In-place `battle`: account creation, the checks, the transfer on the live records, then `check_level_up` on the winner. The accounts and the reply equal `Accounts.Battle`, and nothing else changes |
| Bot.Economy.InitShop | main.py:92-151 | In-place `init_shop`, equal to `Shop.InitShop`; the ledger is untouched |
| Bot.Economy.AddShopItem | main.py:1754-1811 | Reseeds in place, then stores the catalogue `Shop.AddItem` gives on the reseeded catalogue, with its reply |
| Bot.Economy.EditShopItem | main.py:1838-1893 | Reseeds in place, then stores the catalogue `Shop.EditItem` gives on the reseeded catalogue, with its reply |
| Bot.Economy.RemoveShopItem | main.py:1813-1836 | Reseeds, then deletes in place, equal to `Shop.RemoveItem` on the reseeded catalogue |

## Left out

- Discord I/O: messages, embeds, mentions and footers are not modelled, and neither are the permission decorators; each command's message becomes a `Reply`. The bet lists and totals that `result` gathers only for its embed are not modelled.
- Persistence: `save_data`, `load_data` and `emergency_backup` write JSON files. The model keeps the state in memory, and the constructor is the empty state before loading.
- The confirmation waits (`massadd`, `battle`) are an input boolean. Their timeouts are a refusal (`Cancelled`), and the interleavings the awaits allow are not modelled. In particular, `battle` checks both balances (main.py:2235) before its 60-second wait (main.py:2255) and moves the stake (main.py:2289-2296) without checking again. A bet or a `give` by either fighter during the wait can therefore leave the loser with a negative balance. `Accounts.BattleTransfer`'s "the loser stays non-negative" holds only for a battle that nothing interrupts.
- Randomness: the battle rolls are inputs. Their range 1..100 is not enforced, because the model holds for any rolls.
- Time: timestamps are opaque values given as inputs.
- Model.Account: `init_user` also creates `daily_streak`, `last_daily`, `last_work`, `last_train`, `inventory` and `achievements`. None of the modelled commands reads or writes them, so the account record leaves them out.
- Argument parsing: converting a command's arguments and filling in their defaults is left to the caller. For example, `additem` defaults to `currency='reiatsu'` and `stock=999` (main.py:1756). `Shop.AddItem` takes the currency and the stock as explicit inputs.
- Iteration order: `Bot.SettleBets` visits the accounts in any order, where the bot iterates the offer's bets in insertion order. Settlement touches each account independently, so the order does not change the result.
- Accounts.Winner: states only that the winner is one of the two fighters; who wins (the challenger only with a strictly higher total, so the opponent wins ties) is its definition, used as such by `Accounts.BattleTransfer`.
- Text.Lower: `str.lower` is modelled for ASCII letters only; other letters keep their case.
- Text.ParseShowInt: `int()` is modelled for ASCII decimal digits with an optional sign, underscores and surrounding whitespace. Python also accepts other Unicode digits, which are not modelled.
- Betting.PlaceThenDeleteRestores: needs bet references that match the bets (part of the ledger invariant). With a stale reference to the match in the bettor's list, the cancellation would also drop that reference. `resetuser` (main.py:1055-1096) creates such a ledger: it deletes and re-creates an account with an empty `active_bets` while that user's bets stay in the offers. `resetuser` is not part of this model.
- Bot.Economy.PlaceBet: like the other command methods, it does not restate `Valid()` in its own contract. Preservation follows from its postcondition and `Betting.PlaceBetKeepsValid`. The other methods use their own `...KeepsValid` lemmas.
- Other commands are not part of this model: `setreiatsu`, `setfragments`, `setexp`, `setrank`, `resetuser`, power grants, streaks, cooldowns, daily/work/train, inflation adjustment, analytics, leaderboard and the shop display. They are presentation, clock-dependent, floating-point, or outside the ledger.
- The house-edge figure in the settlement message is display only.
- Choices the code makes that its messages and help text do not spell out, which the model keeps. An ambiguous team label goes to team 1. `result` settles an open offer directly, without requiring a lock. A winner without an account is not paid. Rejected bets, cancellations, transfers and battles still create the caller's account.

=== FILE: accounts.dfy ===
/** Account arithmetic around the betting ledger: lazy account creation, the
    clamped admin adjustments, the mass adjustment, levels and ranks, battle
    power, the battle stake and the fee-taking transfer. Each command is a
    function from the accounts map (and its inputs) to the new map and a reply. */
module Accounts {
  import opened Model

  datatype Update = Update(users: map<UserId, Account>, reply: Reply)

  /** `init_user`: an id seen for the first time gets the default account;
      an existing account is left alone. */
  function InitUser(users: map<UserId, Account>, uid: UserId): (r: map<UserId, Account>)
    ensures r.Keys == users.Keys + {uid}
    ensures forall u :: u in users ==> r[u] == users[u]
    ensures uid !in users ==> r[uid] == NewAccount()
  {
    if uid in users then users else users[uid := NewAccount()]
  }

  /** A balance moved by `delta` and put back to zero if it went negative. */
  function ClampedAdd(balance: int, delta: int): (r: int)
    ensures r >= 0 && r >= balance + delta
    ensures r == balance + delta || r == 0
  {
    if balance + delta < 0 then 0 else balance + delta
  }

  function Balance(a: Account, c: Currency): int
  {
    match c
    case Reiatsu => a.reiatsu
    case SoulFragments => a.soulFragments
  }

  /** One account's balance in currency `c` moved by `delta`, clamped at zero. */
  function Adjust(a: Account, c: Currency, delta: int): (r: Account)
    ensures Balance(r, c) == ClampedAdd(Balance(a, c), delta)
    ensures c == Reiatsu ==> r.(reiatsu := a.reiatsu) == a
    ensures c == SoulFragments ==> r.(soulFragments := a.soulFragments) == a
  {
    match c
    case Reiatsu => a.(reiatsu := ClampedAdd(a.reiatsu, delta))
    case SoulFragments => a.(soulFragments := ClampedAdd(a.soulFragments, delta))
  }

  /** `adreiatsu` / `adfragments`: create the account if needed, then adjust it. */
  function AddCurrency(users: map<UserId, Account>, uid: UserId, c: Currency, delta: int)
    : (r: map<UserId, Account>)
    ensures r.Keys == users.Keys + {uid}
    ensures forall u :: u in users && u != uid ==> r[u] == users[u]
    ensures var a := InitUser(users, uid)[uid];
            && Balance(r[uid], c) == ClampedAdd(Balance(a, c), delta)
            && r[uid].(reiatsu := a.reiatsu, soulFragments := a.soulFragments) == a
            && forall d :: d != c ==> Balance(r[uid], d) == Balance(a, d)
    ensures Balance(r[uid], c) >= 0
    ensures uid in users && Balance(users[uid], c) + delta >= 0 ==>
              Balance(r[uid], c) == Balance(users[uid], c) + delta
  {
    var created := InitUser(users, uid);
    created[uid := Adjust(created[uid], c, delta)]
  }

  /** Every account adjusted by the same `delta`: the same accounts, each with
      its balance in `c` moved by `delta` and clamped at zero, and nothing else
      changed. */
  function AdjustAll(users: map<UserId, Account>, c: Currency, delta: int): (r: map<UserId, Account>)
    ensures r.Keys == users.Keys
    ensures forall u :: u in r ==> Balance(r[u], c) == ClampedAdd(Balance(users[u], c), delta)
    ensures forall u, d :: u in r && d != c ==> Balance(r[u], d) == Balance(users[u], d)
    ensures forall u :: u in r ==>
              r[u].(reiatsu := users[u].reiatsu, soulFragments := users[u].soulFragments) == users[u]
  {
    map u | u in users :: Adjust(users[u], c, delta)
  }

  /** `massadd` after the confirmation step: every account adjusted, clamped at zero. */
  function MassAdd(users: map<UserId, Account>, currency: string, delta: int, confirmed: bool)
    : (r: Update)
    ensures r.reply == Err(BadCurrency) <==> ParseCurrency(currency).None?
    ensures r.reply == Err(Cancelled) <==> ParseCurrency(currency).Some? && !confirmed
    ensures r.reply.Ok? <==> ParseCurrency(currency).Some? && confirmed
    ensures r.reply.Err? ==> r.users == users
    ensures r.reply.Ok? ==> r.users.Keys == users.Keys
    ensures r.reply.Ok? ==> forall u :: u in users ==>
              r.users[u] == Adjust(users[u], ParseCurrency(currency).value, delta)
    ensures r.reply.Ok? ==> forall u :: u in r.users ==>
              Balance(r.users[u], ParseCurrency(currency).value) >= 0
  {
    match ParseCurrency(currency)
    case None => Update(users, Err(BadCurrency))
    case Some(c) =>
      if !confirmed then Update(users, Err(Cancelled))
      else Update(AdjustAll(users, c, delta), Ok)
  }

  /** The rank `setlevel` gives: a fixed ladder from level 10 up, the current
      rank below level 10. */
  function RankForLevel(level: int, current: Rank): (r: Rank)
    ensures level < 10 ==> r == current
    ensures level >= 10 ==> RankIndex(r) >= RankIndex(Seat10)
    ensures level >= 50 ==> r == CaptainCommander
  {
    if level >= 50 then CaptainCommander
    else if level >= 40 then Captain
    else if level >= 30 then Lieutenant
    else if level >= 20 then Seat3
    else if level >= 15 then Seat5
    else if level >= 10 then Seat10
    else current
  }

  /** From level 10 up, a higher level never gives a lower rank. */
  lemma RankForLevelMonotone(low: int, high: int, current: Rank)
    requires 10 <= low <= high
    ensures RankIndex(RankForLevel(low, current)) <= RankIndex(RankForLevel(high, current))
  {
  }

  /** `setlevel`: refused below 1 (before the account is created); otherwise
      level set, experience reset, rank from the ladder. */
  function SetLevel(users: map<UserId, Account>, uid: UserId, level: int): (r: Update)
    ensures r.reply.Err? <==> level < 1
    ensures r.reply.Err? ==> r.users == users && r.reply == Err(BadLevel)
    ensures r.reply.Ok? ==> r.users.Keys == users.Keys + {uid}
    ensures r.reply.Ok? ==> r.users[uid].level == level && r.users[uid].exp == 0
    ensures r.reply.Ok? ==>
              var a := InitUser(users, uid)[uid];
              && r.users[uid].rank == RankForLevel(level, a.rank)
              && r.users[uid].(level := a.level, exp := a.exp, rank := a.rank) == a
    ensures r.reply.Ok? ==> forall u :: u in users && u != uid ==> r.users[u] == users[u]
  {
    if level < 1 then Update(users, Err(BadLevel))
    else
      var created := InitUser(users, uid);
      var a := created[uid];
      Update(created[uid := a.(level := level, exp := 0, rank := RankForLevel(level, a.rank))], Ok)
  }

  /** Python truthiness of an optional power name. */
  predicate Truthy(p: Option<string>)
  {
    p.Some? && p.value != ""
  }

  /** `calculate_battle_power`: ten per level, five per rank step, and fixed
      bonuses for a Zanpakuto (20) and a Stand (25). */
  function BattlePower(a: Account): (r: int)
    ensures 0 <= r - 10 * a.level <= 5 * 9 + 20 + 25
    ensures (r - 10 * a.level) % 5 == 0
    ensures Truthy(a.zanpakuto) && Truthy(a.stand) <==> r - 10 * a.level >= 5 * RankIndex(a.rank) + 45
  {
    var zanpakutoBonus := if Truthy(a.zanpakuto) then 20 else 0;
    var standBonus := if Truthy(a.stand) then 25 else 0;
    a.level * 10 + RankIndex(a.rank) * 5 + zanpakutoBonus + standBonus
  }

  /** `check_level_up`: one level gained (and experience reset) once experience
      reaches 100, with the two promotions the bot implements. */
  function LevelUp(a: Account): (r: (Account, bool))
    ensures r.1 <==> a.exp >= 100
    ensures !r.1 ==> r.0 == a
    ensures r.1 ==> r.0.level == a.level + 1 && r.0.exp == 0
    ensures RankIndex(a.rank) <= RankIndex(r.0.rank) <= RankIndex(a.rank) + 1
    ensures r.1 && a.rank == AcademyStudent ==> (r.0.rank == UnseatedOfficer <==> a.level + 1 >= 10)
    ensures r.1 && a.rank == UnseatedOfficer ==> (r.0.rank == Seat20 <==> a.level + 1 >= 20)
    ensures a.rank != AcademyStudent && a.rank != UnseatedOfficer ==> r.0.rank == a.rank
    ensures r.0.(level := a.level, exp := a.exp, rank := a.rank) == a
  {
    if a.exp >= 100 then
      var level := a.level + 1;
      var rank :=
        if level >= 10 && a.rank == AcademyStudent then UnseatedOfficer
        else if level >= 20 && a.rank == UnseatedOfficer then Seat20
        else a.rank;
      (a.(level := level, exp := 0, rank := rank), true)
    else (a, false)
  }

  /** The transfer fee of `give`: 5% rounded down, at least 1. */
  function TransferFee(amount: int): (fee: int)
    ensures fee >= 1
    ensures amount >= 1 ==> fee <= amount
    ensures amount >= 20 ==> 20 * fee <= amount < 20 * (fee + 1)
    ensures amount < 40 ==> fee == 1
  {
    if amount / 20 > 1 then amount / 20 else 1
  }

  /** `give`: checks the target and the amount, creates both accounts, checks
      the sender's funds, then moves `amount` out and `amount - fee` in. */
  function Give(users: map<UserId, Account>, sender: UserId, receiver: UserId,
                receiverIsBot: bool, amount: int): (r: Update)
    ensures r.reply == Err(InvalidTarget) <==> receiverIsBot || receiver == sender
    ensures !receiverIsBot && receiver != sender && amount <= 0 ==> r.reply == Err(NonPositiveAmount)
    ensures r.reply.Err? ==> r.reply.error in {InvalidTarget, NonPositiveAmount, InsufficientFunds}
    ensures r.reply.Err? && r.reply.error in {InvalidTarget, NonPositiveAmount} ==> r.users == users
    ensures r.reply == Err(InsufficientFunds) ==> r.users == InitUser(InitUser(users, sender), receiver)
    ensures r.reply.Ok? <==>
              !receiverIsBot && receiver != sender && amount > 0
              && InitUser(users, sender)[sender].reiatsu >= amount
    ensures r.reply.Ok? ==>
              var before := InitUser(InitUser(users, sender), receiver);
              && r.users.Keys == before.Keys
              && r.users[sender].reiatsu == before[sender].reiatsu - amount >= 0
              && r.users[receiver].reiatsu == before[receiver].reiatsu + amount - TransferFee(amount)
              && r.users[sender].reiatsu + r.users[receiver].reiatsu
                 == before[sender].reiatsu + before[receiver].reiatsu - TransferFee(amount)
              && r.users[sender].(reiatsu := before[sender].reiatsu) == before[sender]
              && r.users[receiver].(reiatsu := before[receiver].reiatsu) == before[receiver]
              && forall u :: u in before && u != sender && u != receiver ==> r.users[u] == before[u]
  {
    if receiverIsBot || receiver == sender then Update(users, Err(InvalidTarget))
    else if amount <= 0 then Update(users, Err(NonPositiveAmount))
    else
      var both := InitUser(InitUser(users, sender), receiver);
      if both[sender].reiatsu < amount then Update(both, Err(InsufficientFunds))
      else
        var fee := TransferFee(amount);
        var from := both[sender].(reiatsu := both[sender].reiatsu - amount);
        var to := both[receiver].(reiatsu := both[receiver].reiatsu + (amount - fee));
        Update(both[sender := from][receiver := to], Ok)
  }

  const MinimumBattleBalance := 100

  /** The reiatsu a battle moves: a tenth of the poorer fighter's balance, at least 100. */
  function BattleStake(winnerBalance: int, loserBalance: int): (stake: int)
    ensures stake >= MinimumBattleBalance
    ensures winnerBalance >= MinimumBattleBalance && loserBalance >= MinimumBattleBalance ==>
              stake <= winnerBalance && stake <= loserBalance
    ensures var lower := if winnerBalance < loserBalance then winnerBalance else loserBalance;
            && (lower >= 1010 ==> stake == lower / 10)
            && (lower < 1010 ==> stake == MinimumBattleBalance)
  {
    var lower := if winnerBalance < loserBalance then winnerBalance else loserBalance;
    if lower / 10 > MinimumBattleBalance then lower / 10 else MinimumBattleBalance
  }

  /** Who wins: the challenger only with a strictly higher total of power and roll. */
  function Winner(challenger: UserId, challengerData: Account, challengerRoll: int,
                  opponent: UserId, opponentData: Account, opponentRoll: int): (w: UserId)
    ensures w == challenger || w == opponent
  {
    if BattlePower(challengerData) + challengerRoll > BattlePower(opponentData) + opponentRoll
    then challenger else opponent
  }

  /** The accounts after a fight, before the level check: the winner takes
      the stake from the loser and wins one more battle; the winner gains 25
      experience and the loser 10. */
  function Fight(before: map<UserId, Account>, w: UserId, l: UserId): (r: map<UserId, Account>)
    requires w in before && l in before && w != l
    ensures r.Keys == before.Keys
    ensures forall u :: u in before && u != w && u != l ==> r[u] == before[u]
    ensures var stake := BattleStake(before[w].reiatsu, before[l].reiatsu);
            && r[w].reiatsu == before[w].reiatsu + stake
            && r[l].reiatsu == before[l].reiatsu - stake
            && r[w].battlesWon == before[w].battlesWon + 1
            && r[w].exp == before[w].exp + 25
            && r[l].exp == before[l].exp + 10
            && r[w].(reiatsu := before[w].reiatsu, battlesWon := before[w].battlesWon,
                     exp := before[w].exp) == before[w]
            && r[l].(reiatsu := before[l].reiatsu, exp := before[l].exp) == before[l]
  {
    var stake := BattleStake(before[w].reiatsu, before[l].reiatsu);
    var winnerData := before[w].(reiatsu := before[w].reiatsu + stake,
                                 battlesWon := before[w].battlesWon + 1,
                                 exp := before[w].exp + 25);
    var loserData := before[l].(reiatsu := before[l].reiatsu - stake, exp := before[l].exp + 10);
    before[w := winnerData][l := loserData]
  }

  /** The accounts after an accepted battle: the fight, then the winner's
      level check. Only the two fighters change, and no bet reference does. */
  function Duel(before: map<UserId, Account>, challenger: UserId, o: UserId,
                challengerRoll: int, opponentRoll: int): (r: map<UserId, Account>)
    requires challenger in before && o in before && challenger != o
    ensures r.Keys == before.Keys
    ensures forall u :: u in before ==> r[u].activeBets == before[u].activeBets
    ensures forall u :: u in before && u != challenger && u != o ==> r[u] == before[u]
  {
    var w := Winner(challenger, before[challenger], challengerRoll, o, before[o], opponentRoll);
    var l := if w == challenger then o else challenger;
    var fought := Fight(before, w, l);
    fought[w := LevelUp(fought[w]).0]
  }

  /** `battle`, with the two random rolls and the opponent's answer to the
      challenge as inputs. */
  function Battle(users: map<UserId, Account>, challenger: UserId, opponent: Option<UserId>,
                  opponentIsBot: bool, accepted: bool, challengerRoll: int, opponentRoll: int)
    : (r: Update)
    ensures r.reply == Err(InvalidTarget) <==>
              opponent.None? || opponentIsBot || opponent.value == challenger
    ensures r.reply == Err(InvalidTarget) ==> r.users == users
    ensures r.reply.Ok? ==> r.users.Keys == InitUser(InitUser(users, challenger), opponent.value).Keys
    ensures users.Keys <= r.users.Keys
    ensures forall u :: u in users ==> r.users[u].activeBets == users[u].activeBets
    ensures forall u :: u in r.users && u !in users ==> r.users[u].activeBets == []
  {
    if opponent.None? || opponentIsBot || opponent.value == challenger then
      Update(users, Err(InvalidTarget))
    else
      var o := opponent.value;
      var before := InitUser(InitUser(users, challenger), o);
      if before[challenger].reiatsu < MinimumBattleBalance || before[o].reiatsu < MinimumBattleBalance then
        Update(before, Err(InsufficientFunds))
      else if !accepted then
        Update(before, Err(Cancelled))
      else
        Update(Duel(before, challenger, o, challengerRoll, opponentRoll), Ok)
  }

  /** The checks of a battle: past a valid opponent, a balance under 100 or a
      declined challenge is refused with only the two accounts created, and
      the battle is fought exactly when every check passes. */
  lemma BattleChecks(users: map<UserId, Account>, challenger: UserId, opponent: Option<UserId>,
                     opponentIsBot: bool, accepted: bool, challengerRoll: int, opponentRoll: int)
    ensures var r := Battle(users, challenger, opponent, opponentIsBot, accepted, challengerRoll, opponentRoll);
            && (r.reply.Err? ==> r.reply.error in {InvalidTarget, InsufficientFunds, Cancelled})
            && (r.reply.Err? && r.reply.error != InvalidTarget ==>
                  r.users == InitUser(InitUser(users, challenger), opponent.value))
            && (r.reply.Ok? <==>
                  && opponent.Some? && !opponentIsBot && opponent.value != challenger
                  && InitUser(InitUser(users, challenger), opponent.value)[challenger].reiatsu >= MinimumBattleBalance
                  && InitUser(InitUser(users, challenger), opponent.value)[opponent.value].reiatsu >= MinimumBattleBalance
                  && accepted)
  {
  }

  /** What an accepted battle does: the winner takes the stake from the loser
      (so the two balances keep their sum and the loser's stays non-negative),
      the winner's win count goes up and its experience runs through the level
      check with the promotions it makes, the loser gains experience, and no
      other field changes. */
  lemma BattleTransfer(users: map<UserId, Account>, challenger: UserId, opponent: Option<UserId>,
                       opponentIsBot: bool, accepted: bool, challengerRoll: int, opponentRoll: int)
    requires Battle(users, challenger, opponent, opponentIsBot, accepted, challengerRoll, opponentRoll).reply.Ok?
    ensures var r := Battle(users, challenger, opponent, opponentIsBot, accepted, challengerRoll, opponentRoll);
            var o := opponent.value;
            var before := InitUser(InitUser(users, challenger), o);
            var w := Winner(challenger, before[challenger], challengerRoll, o, before[o], opponentRoll);
            var l := if w == challenger then o else challenger;
            && before[challenger].reiatsu >= MinimumBattleBalance
            && before[o].reiatsu >= MinimumBattleBalance
            && r.users[w].reiatsu + r.users[l].reiatsu == before[w].reiatsu + before[l].reiatsu
            && r.users[w].reiatsu == before[w].reiatsu + BattleStake(before[w].reiatsu, before[l].reiatsu)
            && r.users[l].reiatsu >= 0
            && r.users[w].battlesWon == before[w].battlesWon + 1
            && r.users[w].exp == (if before[w].exp + 25 >= 100 then 0 else before[w].exp + 25)
            && r.users[w].level == before[w].level + (if before[w].exp + 25 >= 100 then 1 else 0)
            && r.users[l].exp == before[l].exp + 10
            && r.users[l].(reiatsu := before[l].reiatsu, exp := before[l].exp) == before[l]
            && (before[w].exp + 25 >= 100 && before[w].rank == AcademyStudent ==>
                  (r.users[w].rank == UnseatedOfficer <==> before[w].level + 1 >= 10))
            && (before[w].exp + 25 >= 100 && before[w].rank == UnseatedOfficer ==>
                  (r.users[w].rank == Seat20 <==> before[w].level + 1 >= 20))
            && (before[w].exp + 25 < 100 || (before[w].rank != AcademyStudent && before[w].rank != UnseatedOfficer) ==>
                  r.users[w].rank == before[w].rank)
            && r.users[w].(reiatsu := before[w].reiatsu, battlesWon := before[w].battlesWon,
                           exp := before[w].exp, level := before[w].level, rank := before[w].rank) == before[w]
  {
  }

  lemma BattleTouchesOnlyFighters(users: map<UserId, Account>, challenger: UserId, opponent: Option<UserId>,
                                  opponentIsBot: bool, accepted: bool, challengerRoll: int, opponentRoll: int)
    requires Battle(users, challenger, opponent, opponentIsBot, accepted, challengerRoll, opponentRoll).reply.Ok?
    ensures var r := Battle(users, challenger, opponent, opponentIsBot, accepted, challengerRoll, opponentRoll);
            var before := InitUser(InitUser(users, challenger), opponent.value);
            forall u :: u in before && u != challenger && u != opponent.value ==> r.users[u] == before[u]
  {
  }
}

=== FILE: betting.dfy ===
/** The fixed-odds betting ledger: the offer registry (create, lock, unlock),
    the bet engine (place, cancel) and settlement. Each command is a function
    from the ledger state to the new state and a reply; `Valid` is the ledger
    invariant every command keeps. */
module Betting {
  import opened Model
  import opened Sums
  import Text
  import opened Accounts

  const MinimumBet := 100

  /** The three dictionaries the betting commands touch, and the freeze flag. */
  datatype State = State(
    users: map<UserId, Account>,
    active: map<MatchId, Offer>,
    results: map<MatchId, Offer>,
    frozen: bool)

  datatype Outcome = Outcome(state: State, reply: Reply)

  /** The description a bet reference keeps of its match: the two team names joined by " vs ". */
  function MatchDescription(o: Offer): string
  {
    o.team1 + " vs " + o.team2
  }

  // ---------------------------------------------------------------------------
  // Payout and team choice

  /** What a winning bet pays back: the stake plus the profit percentage of it,
      rounded down (Python's `//` by 100, which Dafny's `/` matches for a
      positive divisor). */
  function PotentialReturn(amount: int, pct: int): (r: int)
    ensures amount >= 0 && pct >= 0 ==> r >= amount
  {
    amount + amount * pct / 100
  }

  /** The profit part is the exact profit `amount * pct / 100` rounded down. */
  lemma PotentialReturnRounding(amount: int, pct: int)
    ensures var profit := PotentialReturn(amount, pct) - amount;
            100 * profit <= amount * pct < 100 * profit + 100
  {
  }

  /** The team a `!bet` choice stands for: any spelling of team 1 ('1', 'team1'
      or its label, ignoring case) wins, then any spelling of team 2. */
  function ResolveTeam(choice: string, team1: string, team2: string): (r: Option<Team>)
    ensures r == Some(Team1) <==> Text.Lower(choice) in {"1", "team1", Text.Lower(team1)}
    ensures r == Some(Team2) <==>
              Text.Lower(choice) !in {"1", "team1", Text.Lower(team1)}
              && Text.Lower(choice) in {"2", "team2", Text.Lower(team2)}
    ensures r.None? <==>
              Text.Lower(choice) !in {"1", "team1", Text.Lower(team1), "2", "team2", Text.Lower(team2)}
  {
    var c := Text.Lower(choice);
    if c == "1" || c == "team1" || c == Text.Lower(team1) then Some(Team1)
    else if c == "2" || c == "team2" || c == Text.Lower(team2) then Some(Team2)
    else None
  }

  /** The choice is read without regard to the case of its ASCII letters. */
  lemma ResolveTeamIgnoresCase(choice: string, team1: string, team2: string)
    ensures ResolveTeam(Text.Lower(choice), team1, team2) == ResolveTeam(choice, team1, team2)
  {
    Text.LowerIdempotent(choice);
  }

  /** Typing a team's own label picks team 1 always, and team 2 exactly when
      that label is not also a spelling of team 1 (labels that differ only in
      case both go to team 1). */
  lemma ResolveTeamByLabel(team1: string, team2: string)
    ensures ResolveTeam(team1, team1, team2) == Some(Team1)
    ensures ResolveTeam(team2, team1, team2) == Some(Team2) <==>
              Text.Lower(team2) !in {"1", "team1", Text.Lower(team1)}
  {
    Text.LowerIdempotent(team1);
    Text.LowerIdempotent(team2);
  }

  // ---------------------------------------------------------------------------
  // Active-bet references kept in the accounts

  /** How many entries of an `active_bets` list refer to match `m`. */
  function RefCount(refs: seq<BetRef>, m: MatchId): nat
  {
    if refs == [] then 0
    else RefCount(refs[..|refs| - 1], m) + (if refs[|refs| - 1].matchId == m then 1 else 0)
  }

  /** The list comprehension that drops every entry of match `m`, order kept. */
  function StripMatch(refs: seq<BetRef>, m: MatchId): (r: seq<BetRef>)
    ensures |r| <= |refs|
    ensures forall i :: 0 <= i < |r| ==> r[i].matchId != m
  {
    if refs == [] then []
    else
      var last := refs[|refs| - 1];
      StripMatch(refs[..|refs| - 1], m) + (if last.matchId == m then [] else [last])
  }

  lemma RefCountAppend(refs: seq<BetRef>, x: BetRef, m: MatchId)
    ensures RefCount(refs + [x], m) == RefCount(refs, m) + (if x.matchId == m then 1 else 0)
  {
    assert (refs + [x])[..|refs|] == refs;
  }

  /** Stripping match `mid` zeroes its count and leaves every other match's count. */
  lemma {:induction false} RefCountStrip(refs: seq<BetRef>, mid: MatchId, m: MatchId)
    ensures RefCount(StripMatch(refs, mid), m) == if m == mid then 0 else RefCount(refs, m)
  {
    if refs != [] {
      var init := refs[..|refs| - 1];
      var last := refs[|refs| - 1];
      RefCountStrip(init, mid, m);
      assert init + [last] == refs;
      RefCountAppend(init, last, m);
      if last.matchId != mid {
        RefCountAppend(StripMatch(init, mid), last, m);
      } else {
        assert StripMatch(refs, mid) == StripMatch(init, mid);
      }
    }
  }

  /** A list without entries for `mid` is left as it is. */
  lemma {:induction false} StripMatchNoop(refs: seq<BetRef>, mid: MatchId)
    requires RefCount(refs, mid) == 0
    ensures StripMatch(refs, mid) == refs
  {
    if refs != [] {
      var init := refs[..|refs| - 1];
      StripMatchNoop(init, mid);
      assert init + [refs[|refs| - 1]] == refs;
    }
  }

  lemma StripMatchAppend(refs: seq<BetRef>, x: BetRef)
    ensures StripMatch(refs + [x], x.matchId) == StripMatch(refs, x.matchId)
  {
    assert (refs + [x])[..|refs|] == refs;
  }

  // ---------------------------------------------------------------------------
  // Running totals

  /** What a bet adds to the total of team `t`. */
  function Contribution(b: Bet, t: Team): int
  {
    if b.team == t then b.amount else 0
  }

  function StakeFn(bets: map<UserId, Bet>, t: Team): UserId -> int
  {
    u => if u in bets then Contribution(bets[u], t) else 0
  }

  /** The sum of the stakes in `bets` placed on team `t`. */
  ghost function StakeOn(bets: map<UserId, Bet>, t: Team): int
  {
    SumOver(bets.Keys, StakeFn(bets, t))
  }

  lemma StakeOnInsert(bets: map<UserId, Bet>, u: UserId, b: Bet, t: Team)
    requires u !in bets
    ensures StakeOn(bets[u := b], t) == StakeOn(bets, t) + Contribution(b, t)
  {
    assert bets[u := b].Keys == bets.Keys + {u};
    SumOverInsert(bets.Keys, StakeFn(bets, t), StakeFn(bets[u := b], t), u);
  }

  lemma StakeOnRemove(bets: map<UserId, Bet>, u: UserId, t: Team)
    requires u in bets
    ensures StakeOn(bets - {u}, t) == StakeOn(bets, t) - Contribution(bets[u], t)
  {
    var rest := bets - {u};
    assert rest[u := bets[u]] == bets;
    StakeOnInsert(rest, u, bets[u], t);
  }

  /** An offer's running totals agree with its bets. */
  ghost predicate Tallied(o: Offer)
  {
    && o.totalTeam1 == StakeOn(o.bets, Team1)
    && o.totalTeam2 == StakeOn(o.bets, Team2)
    && o.totalCount == |o.bets|
  }

  /** `o` with the bet of `uid` recorded in its bets, its team's total and its count. */
  function WithBet(o: Offer, uid: UserId, b: Bet): Offer
  {
    o.(bets := o.bets[uid := b],
       totalTeam1 := o.totalTeam1 + Contribution(b, Team1),
       totalTeam2 := o.totalTeam2 + Contribution(b, Team2),
       totalCount := o.totalCount + 1)
  }

  /** `o` with the bet of `uid` taken out of its bets, its team's total and its count. */
  function WithoutBet(o: Offer, uid: UserId): Offer
    requires uid in o.bets
  {
    var b := o.bets[uid];
    o.(bets := o.bets - {uid},
       totalTeam1 := o.totalTeam1 - Contribution(b, Team1),
       totalTeam2 := o.totalTeam2 - Contribution(b, Team2),
       totalCount := o.totalCount - 1)
  }

  lemma WithBetTallied(o: Offer, uid: UserId, b: Bet)
    requires Tallied(o) && uid !in o.bets
    ensures Tallied(WithBet(o, uid, b))
  {
    StakeOnInsert(o.bets, uid, b, Team1);
    StakeOnInsert(o.bets, uid, b, Team2);
  }

  lemma WithoutBetTallied(o: Offer, uid: UserId)
    requires Tallied(o) && uid in o.bets
    ensures Tallied(WithoutBet(o, uid))
  {
    StakeOnRemove(o.bets, uid, Team1);
    StakeOnRemove(o.bets, uid, Team2);
  }

  lemma WithBetPriced(o: Offer, uid: UserId, b: Bet)
    requires BetsPriced(o)
    requires b.amount >= MinimumBet && b.potentialReturn == PotentialReturn(b.amount, o.profitPercentage)
    ensures BetsPriced(WithBet(o, uid, b))
  {
  }

  lemma WithoutBetPriced(o: Offer, uid: UserId)
    requires BetsPriced(o) && uid in o.bets
    ensures BetsPriced(WithoutBet(o, uid))
  {
  }

  /** Taking out a bet just recorded gives back the offer as it was. */
  lemma WithoutWithBet(o: Offer, uid: UserId, b: Bet)
    requires uid !in o.bets
    ensures WithoutBet(WithBet(o, uid, b), uid) == o
  {
    assert o.bets[uid := b] - {uid} == o.bets;
  }

  /** The bettor's side of a bet: the stake debited and a reference appended. */
  function Debit(a: Account, ref: BetRef): Account
  {
    a.(reiatsu := a.reiatsu - ref.amount, activeBets := a.activeBets + [ref])
  }

  /** The bettor's side of a cancellation: the stake credited back and the match's references dropped. */
  function Refund(a: Account, amount: int, mid: MatchId): Account
  {
    a.(reiatsu := a.reiatsu + amount, activeBets := StripMatch(a.activeBets, mid))
  }

  /** Refunding a debit restores an account that had no reference to the match. */
  lemma RefundDebit(a: Account, ref: BetRef)
    requires RefCount(a.activeBets, ref.matchId) == 0
    ensures Refund(Debit(a, ref), ref.amount, ref.matchId) == a
  {
    StripMatchAppend(a.activeBets, ref);
    StripMatchNoop(a.activeBets, ref.matchId);
  }

  function BalanceFn(users: map<UserId, Account>): UserId -> int
  {
    u => if u in users then users[u].reiatsu else 0
  }

  /** All reiatsu held in accounts. */
  ghost function TotalReiatsu(users: map<UserId, Account>): int
  {
    SumOver(users.Keys, BalanceFn(users))
  }

  function PoolFn(active: map<MatchId, Offer>): MatchId -> int
  {
    m => if m in active then active[m].totalTeam1 + active[m].totalTeam2 else 0
  }

  /** All stakes held by open or locked offers (debited from the bettors, not yet settled). */
  ghost function Escrow(active: map<MatchId, Offer>): int
  {
    SumOver(active.Keys, PoolFn(active))
  }

  // ---------------------------------------------------------------------------
  // The ledger invariant

  /** The bookkeeping fields of an active offer: its id is its key, its
      percentage is not negative, it is not completed, and it carries a lock
      time exactly when it is locked. */
  ghost predicate OfferShaped(o: Offer, m: MatchId)
  {
    && o.id == m
    && o.profitPercentage >= 0
    && !o.status.Completed?
    && (o.status.Locked? <==> o.lockedAt.Some?)
  }

  /** Every bet of an offer is at least the minimum and records the return the offer's percentage gives. */
  ghost predicate BetsPriced(o: Offer)
  {
    forall u :: u in o.bets ==>
      && o.bets[u].amount >= MinimumBet
      && o.bets[u].potentialReturn == PotentialReturn(o.bets[u].amount, o.profitPercentage)
  }

  ghost predicate AllShaped(active: map<MatchId, Offer>)
  {
    forall m :: m in active ==> OfferShaped(active[m], m)
  }

  ghost predicate AllTallied(active: map<MatchId, Offer>)
  {
    forall m :: m in active ==> Tallied(active[m])
  }

  ghost predicate AllPriced(active: map<MatchId, Offer>)
  {
    forall m :: m in active ==> BetsPriced(active[m])
  }

  /** Every bettor has an account. */
  ghost predicate BettorsKnown(active: map<MatchId, Offer>, users: map<UserId, Account>)
  {
    forall m :: m in active ==> active[m].bets.Keys <= users.Keys
  }

  ghost predicate ResultsSettled(results: map<MatchId, Offer>)
  {
    forall m :: m in results ==> results[m].status.Completed?
  }

  /** An account's list holds exactly one reference per active offer the account has a bet on, and none otherwise. */
  ghost predicate UserRefs(refs: seq<BetRef>, u: UserId, active: map<MatchId, Offer>)
  {
    forall m :: RefCount(refs, m) == if m in active && u in active[m].bets then 1 else 0
  }

  /** Every account's references agree with the bets of the active offers. */
  ghost predicate RefsMatch(users: map<UserId, Account>, active: map<MatchId, Offer>)
  {
    forall u :: u in users ==> UserRefs(users[u].activeBets, u, active)
  }

  ghost predicate Valid(s: State)
  {
    && AllShaped(s.active)
    && AllTallied(s.active)
    && AllPriced(s.active)
    && BettorsKnown(s.active, s.users)
    && ResultsSettled(s.results)
    && RefsMatch(s.users, s.active)
  }

  lemma EmptyValid()
    ensures Valid(State(map[], map[], map[], false))
  {
  }

  lemma PutShaped(active: map<MatchId, Offer>, mid: MatchId, o: Offer)
    requires AllShaped(active) && OfferShaped(o, mid)
    ensures AllShaped(active[mid := o])
  {
  }

  lemma PutTallied(active: map<MatchId, Offer>, mid: MatchId, o: Offer)
    requires AllTallied(active) && Tallied(o)
    ensures AllTallied(active[mid := o])
  {
  }

  lemma PutPriced(active: map<MatchId, Offer>, mid: MatchId, o: Offer)
    requires AllPriced(active) && BetsPriced(o)
    ensures AllPriced(active[mid := o])
  {
  }

  lemma PutBettors(active: map<MatchId, Offer>, users: map<UserId, Account>, mid: MatchId, o: Offer)
    requires BettorsKnown(active, users) && o.bets.Keys <= users.Keys
    ensures BettorsKnown(active[mid := o], users)
  {
  }

  lemma GrowBettors(active: map<MatchId, Offer>, users: map<UserId, Account>, users': map<UserId, Account>)
    requires BettorsKnown(active, users) && users.Keys <= users'.Keys
    ensures BettorsKnown(active, users')
  {
  }

  /** Dropping an offer keeps every per-offer part of the invariant. */
  lemma DropOffer(active: map<MatchId, Offer>, users: map<UserId, Account>, mid: MatchId)
    requires AllShaped(active) && AllTallied(active) && AllPriced(active) && BettorsKnown(active, users)
    ensures var rest := active - {mid};
            AllShaped(rest) && AllTallied(rest) && AllPriced(rest) && BettorsKnown(rest, users)
  {
  }

  /** Adding accounts with no bet references keeps the references consistent. */
  lemma NewAccountsKeepRefs(users: map<UserId, Account>, active: map<MatchId, Offer>, users': map<UserId, Account>)
    requires RefsMatch(users, active) && BettorsKnown(active, users)
    requires users.Keys <= users'.Keys
    requires forall u :: u in users ==> users'[u].activeBets == users[u].activeBets
    requires forall u :: u in users' && u !in users ==> users'[u].activeBets == []
    ensures RefsMatch(users', active)
  {
    forall u | u in users'
      ensures UserRefs(users'[u].activeBets, u, active)
    {
      if u !in users {
        forall m ensures RefCount(users'[u].activeBets, m) == if m in active && u in active[m].bets then 1 else 0 {
          assert m in active ==> active[m].bets.Keys <= users.Keys;
        }
      }
    }
  }

  /** Account commands that keep every account's bet references and only add
      accounts with an empty list keep the ledger invariant. */
  lemma AccountUpdateKeepsValid(s: State, users: map<UserId, Account>)
    requires Valid(s)
    requires s.users.Keys <= users.Keys
    requires forall u :: u in s.users ==> users[u].activeBets == s.users[u].activeBets
    requires forall u :: u in users && u !in s.users ==> users[u].activeBets == []
    ensures Valid(s.(users := users))
  {
    NewAccountsKeepRefs(s.users, s.active, users);
    GrowBettors(s.active, s.users, users);
  }

  /** The account commands keep the ledger invariant: none of them touches a
      bet reference, and the accounts they create start without any. */
  lemma InitUserKeepsValid(s: State, uid: UserId)
    requires Valid(s)
    ensures Valid(s.(users := InitUser(s.users, uid)))
  {
    AccountUpdateKeepsValid(s, InitUser(s.users, uid));
  }

  lemma AddCurrencyKeepsValid(s: State, uid: UserId, c: Currency, delta: int)
    requires Valid(s)
    ensures Valid(s.(users := AddCurrency(s.users, uid, c, delta)))
  {
    AccountUpdateKeepsValid(s, AddCurrency(s.users, uid, c, delta));
  }

  lemma MassAddKeepsValid(s: State, currency: string, delta: int, confirmed: bool)
    requires Valid(s)
    ensures Valid(s.(users := MassAdd(s.users, currency, delta, confirmed).users))
  {
    AccountUpdateKeepsValid(s, MassAdd(s.users, currency, delta, confirmed).users);
  }

  lemma SetLevelKeepsValid(s: State, uid: UserId, level: int)
    requires Valid(s)
    ensures Valid(s.(users := SetLevel(s.users, uid, level).users))
  {
    AccountUpdateKeepsValid(s, SetLevel(s.users, uid, level).users);
  }

  lemma LevelUpKeepsValid(s: State, uid: UserId)
    requires Valid(s) && uid in s.users
    ensures Valid(s.(users := s.users[uid := LevelUp(s.users[uid]).0]))
  {
    AccountUpdateKeepsValid(s, s.users[uid := LevelUp(s.users[uid]).0]);
  }

  lemma GiveKeepsValid(s: State, sender: UserId, receiver: UserId, receiverIsBot: bool, amount: int)
    requires Valid(s)
    ensures Valid(s.(users := Give(s.users, sender, receiver, receiverIsBot, amount).users))
  {
    AccountUpdateKeepsValid(s, Give(s.users, sender, receiver, receiverIsBot, amount).users);
  }

  lemma BattleKeepsValid(s: State, challenger: UserId, opponent: Option<UserId>, opponentIsBot: bool,
                         accepted: bool, challengerRoll: int, opponentRoll: int)
    requires Valid(s)
    ensures Valid(s.(users := Battle(s.users, challenger, opponent, opponentIsBot, accepted,
                                     challengerRoll, opponentRoll).users))
  {
    AccountUpdateKeepsValid(s, Battle(s.users, challenger, opponent, opponentIsBot, accepted,
                                      challengerRoll, opponentRoll).users);
  }

  /** An account's references stay right when an offer is replaced by one on which the account's bet status is the same. */
  lemma UserRefsPut(refs: seq<BetRef>, u: UserId, active: map<MatchId, Offer>, mid: MatchId, o: Offer)
    requires UserRefs(refs, u, active)
    requires (u in o.bets) == (mid in active && u in active[mid].bets)
    ensures UserRefs(refs, u, active[mid := o])
  {
    forall m ensures RefCount(refs, m) == if m in active[mid := o] && u in active[mid := o][m].bets then 1 else 0 {
      assert RefCount(refs, m) == if m in active && u in active[m].bets then 1 else 0;
    }
  }

  /** An account's references stay right when an offer it has no bet on is removed. */
  lemma UserRefsDrop(refs: seq<BetRef>, u: UserId, active: map<MatchId, Offer>, mid: MatchId)
    requires UserRefs(refs, u, active)
    requires mid in active ==> u !in active[mid].bets
    ensures UserRefs(refs, u, active - {mid})
  {
    forall m ensures RefCount(refs, m) == if m in active - {mid} && u in (active - {mid})[m].bets then 1 else 0 {
      assert RefCount(refs, m) == if m in active && u in active[m].bets then 1 else 0;
    }
  }

  /** Appending the reference of a new bet on `mid` records that bet. */
  lemma UserRefsAppend(refs: seq<BetRef>, u: UserId, active: map<MatchId, Offer>, mid: MatchId, o: Offer, ref: BetRef)
    requires UserRefs(refs, u, active)
    requires mid in active && u !in active[mid].bets && u in o.bets && ref.matchId == mid
    ensures UserRefs(refs + [ref], u, active[mid := o])
  {
    forall m ensures RefCount(refs + [ref], m) == if m in active[mid := o] && u in active[mid := o][m].bets then 1 else 0 {
      assert RefCount(refs, m) == if m in active && u in active[m].bets then 1 else 0;
      RefCountAppend(refs, ref, m);
    }
  }

  /** Stripping the references to `mid` records that the account no longer has a bet on it. */
  lemma UserRefsStrip(refs: seq<BetRef>, u: UserId, active: map<MatchId, Offer>, mid: MatchId,
                      active': map<MatchId, Offer>)
    requires UserRefs(refs, u, active)
    requires active' == active - {mid} || (mid in active && active'.Keys == active.Keys && u !in active'[mid].bets
               && forall m :: m in active && m != mid ==> active'[m] == active[m])
    ensures UserRefs(StripMatch(refs, mid), u, active')
  {
    forall m ensures RefCount(StripMatch(refs, mid), m) == if m in active' && u in active'[m].bets then 1 else 0 {
      assert RefCount(refs, m) == if m in active && u in active[m].bets then 1 else 0;
      RefCountStrip(refs, mid, m);
    }
  }

  /** Replacing an offer by one with the same bettors, or adding an offer with
      no bets, leaves every account's references consistent. */
  lemma PutOfferKeepsRefs(users: map<UserId, Account>, active: map<MatchId, Offer>, mid: MatchId, o: Offer)
    requires RefsMatch(users, active)
    requires mid in active ==> o.bets.Keys == active[mid].bets.Keys
    requires mid !in active ==> o.bets == map[]
    ensures RefsMatch(users, active[mid := o])
  {
    forall u | u in users ensures UserRefs(users[u].activeBets, u, active[mid := o]) {
      UserRefsPut(users[u].activeBets, u, active, mid, o);
    }
  }

  /** A new bet and the reference appended to its bettor's list keep the references consistent. */
  lemma DebitKeepsRefs(users: map<UserId, Account>, active: map<MatchId, Offer>,
                       uid: UserId, mid: MatchId, b: Bet, ref: BetRef)
    requires RefsMatch(users, active)
    requires uid in users && mid in active && uid !in active[mid].bets && ref.matchId == mid
    ensures RefsMatch(users[uid := Debit(users[uid], ref)], active[mid := WithBet(active[mid], uid, b)])
  {
    var o := WithBet(active[mid], uid, b);
    var users' := users[uid := Debit(users[uid], ref)];
    forall v | v in users' ensures UserRefs(users'[v].activeBets, v, active[mid := o]) {
      if v == uid {
        UserRefsAppend(users[uid].activeBets, uid, active, mid, o, ref);
      } else {
        UserRefsPut(users[v].activeBets, v, active, mid, o);
      }
    }
  }

  /** A removed bet and the stripped references of its bettor keep the references consistent. */
  lemma RefundKeepsRefs(users: map<UserId, Account>, active: map<MatchId, Offer>,
                        uid: UserId, mid: MatchId, amount: int)
    requires RefsMatch(users, active)
    requires uid in users && mid in active && uid in active[mid].bets
    ensures RefsMatch(users[uid := Refund(users[uid], amount, mid)], active[mid := WithoutBet(active[mid], uid)])
  {
    var o := WithoutBet(active[mid], uid);
    var users' := users[uid := Refund(users[uid], amount, mid)];
    forall v | v in users' ensures UserRefs(users'[v].activeBets, v, active[mid := o]) {
      if v == uid {
        UserRefsStrip(users[uid].activeBets, uid, active, mid, active[mid := o]);
      } else {
        UserRefsPut(users[v].activeBets, v, active, mid, o);
      }
    }
  }

  /** Removing an offer and stripping it from exactly its bettors' lists keeps the references consistent. */
  lemma SettleKeepsRefs(users: map<UserId, Account>, active: map<MatchId, Offer>, mid: MatchId,
                        users': map<UserId, Account>)
    requires RefsMatch(users, active) && mid in active
    requires users'.Keys == users.Keys
    requires forall u :: u in users ==>
               users'[u].activeBets
               == if u in active[mid].bets then StripMatch(users[u].activeBets, mid) else users[u].activeBets
    ensures RefsMatch(users', active - {mid})
  {
    forall u | u in users' ensures UserRefs(users'[u].activeBets, u, active - {mid}) {
      assert u in users;
      if u in active[mid].bets {
        UserRefsStrip(users[u].activeBets, u, active, mid, active - {mid});
      } else {
        UserRefsDrop(users[u].activeBets, u, active, mid);
      }
    }
  }

  // ---------------------------------------------------------------------------
  // Offer registry

  function NewOffer(mid: MatchId, team1: string, team2: string, pct: int, now: Timestamp): Offer
  {
    Offer(mid, team1, team2, pct, now, None, None, None, map[], 0, 0, 0, Open)
  }

  /** `newoffer`: refuses a negative profit percentage, then a taken id;
      otherwise adds an open offer with no bets. */
  function CreateOffer(s: State, mid: MatchId, team1: string, team2: string, pct: int, now: Timestamp)
    : (r: Outcome)
    ensures r.reply == Err(NegativePercentage) <==> pct < 0
    ensures r.reply == Err(DuplicateId) <==> pct >= 0 && mid in s.active
    ensures r.reply.Ok? <==> pct >= 0 && mid !in s.active
    ensures r.reply.Err? ==> r.state == s
    ensures r.reply.Ok? ==> mid in r.state.active
    ensures r.reply.Ok? ==>
              var o := r.state.active[mid];
              && r.state == s.(active := s.active[mid := o])
              && o.status.Open? && o.bets == map[]
              && o.totalTeam1 == 0 && o.totalTeam2 == 0 && o.totalCount == 0
              && o.team1 == team1 && o.team2 == team2 && o.profitPercentage == pct
  {
    if pct < 0 then Outcome(s, Err(NegativePercentage))
    else if mid in s.active then Outcome(s, Err(DuplicateId))
    else Outcome(s.(active := s.active[mid := NewOffer(mid, team1, team2, pct, now)]), Ok)
  }

  /** `lockoffer`: only an open offer can be locked. */
  function LockOffer(s: State, mid: MatchId, now: Timestamp): (r: Outcome)
    ensures r.reply == Err(NotFound) <==> mid !in s.active
    ensures r.reply.Ok? <==> mid in s.active && s.active[mid].status.Open?
    ensures r.reply.Err? ==> r.state == s
    ensures r.reply.Ok? ==>
              r.state == s.(active := s.active[mid := s.active[mid].(status := Locked, lockedAt := Some(now))])
  {
    if mid !in s.active then Outcome(s, Err(NotFound))
    else
      var o := s.active[mid];
      if o.status.Locked? then Outcome(s, Err(WrongState(Locked)))
      else if o.status.Completed? then Outcome(s, Err(WrongState(Completed)))
      else Outcome(s.(active := s.active[mid := o.(status := Locked, lockedAt := Some(now))]), Ok)
  }

  /** `unlockoffer`: only a locked offer can be reopened; its lock time is dropped. */
  function UnlockOffer(s: State, mid: MatchId): (r: Outcome)
    ensures r.reply == Err(NotFound) <==> mid !in s.active
    ensures r.reply.Ok? <==> mid in s.active && s.active[mid].status.Locked?
    ensures r.reply.Err? ==> r.state == s
    ensures r.reply.Ok? ==>
              r.state == s.(active := s.active[mid := s.active[mid].(status := Open, lockedAt := None)])
  {
    if mid !in s.active then Outcome(s, Err(NotFound))
    else
      var o := s.active[mid];
      if o.status.Open? then Outcome(s, Err(WrongState(Open)))
      else if o.status.Completed? then Outcome(s, Err(WrongState(Completed)))
      else Outcome(s.(active := s.active[mid := o.(status := Open, lockedAt := None)]), Ok)
  }

  lemma CreateOfferKeepsValid(s: State, mid: MatchId, team1: string, team2: string, pct: int, now: Timestamp)
    requires Valid(s)
    ensures Valid(CreateOffer(s, mid, team1, team2, pct, now).state)
  {
    if pct >= 0 && mid !in s.active {
      var o := NewOffer(mid, team1, team2, pct, now);
      assert Tallied(o);
      PutShaped(s.active, mid, o);
      PutTallied(s.active, mid, o);
      PutPriced(s.active, mid, o);
      PutBettors(s.active, s.users, mid, o);
      PutOfferKeepsRefs(s.users, s.active, mid, o);
    }
  }

  /** A command that changes only the status and lock time of an offer, to a consistent pair. */
  lemma StatusChangeKeepsValid(s: State, mid: MatchId, o: Offer)
    requires Valid(s) && mid in s.active
    requires o == s.active[mid].(status := o.status, lockedAt := o.lockedAt)
    requires !o.status.Completed? && (o.status.Locked? <==> o.lockedAt.Some?)
    ensures Valid(s.(active := s.active[mid := o]))
  {
    var prev := s.active[mid];
    assert OfferShaped(prev, mid) && Tallied(prev) && BetsPriced(prev);
    assert o.bets == prev.bets;
    PutShaped(s.active, mid, o);
    PutTallied(s.active, mid, o);
    PutPriced(s.active, mid, o);
    PutBettors(s.active, s.users, mid, o);
    PutOfferKeepsRefs(s.users, s.active, mid, o);
  }

  lemma LockOfferKeepsValid(s: State, mid: MatchId, now: Timestamp)
    requires Valid(s)
    ensures Valid(LockOffer(s, mid, now).state)
  {
    if LockOffer(s, mid, now).reply.Ok? {
      StatusChangeKeepsValid(s, mid, s.active[mid].(status := Locked, lockedAt := Some(now)));
    }
  }

  lemma UnlockOfferKeepsValid(s: State, mid: MatchId)
    requires Valid(s)
    ensures Valid(UnlockOffer(s, mid).state)
  {
    if UnlockOffer(s, mid).reply.Ok? {
      StatusChangeKeepsValid(s, mid, s.active[mid].(status := Open, lockedAt := None));
    }
  }

  // ---------------------------------------------------------------------------
  // Bet engine

  /** `bet`: refuses, in this order, a frozen economy, a missing offer, an offer
      that is not open, an unknown team, a non-positive amount, an amount under
      the minimum, insufficient funds and a second bet on the same offer.
      Otherwise it debits the stake and records the bet, the team total, the
      count and a reference in the bettor's account. The bettor's account is
      created before the offer is looked at, so a refusal after the freeze
      check can still add it. */
  function PlaceBet(s: State, uid: UserId, userName: string, mid: MatchId, choice: string, amount: int)
    : (r: Outcome)
    ensures r.state.results == s.results && r.state.frozen == s.frozen
    ensures r.reply == Err(Frozen) <==> s.frozen
    ensures r.reply.Err? ==> r.state == if s.frozen then s else s.(users := InitUser(s.users, uid))
  {
    if s.frozen then Outcome(s, Err(Frozen))
    else
      var users := InitUser(s.users, uid);
      var s1 := s.(users := users);
      if mid !in s.active then Outcome(s1, Err(NotFound))
      else
        var o := s.active[mid];
        if !o.status.Open? then Outcome(s1, Err(WrongState(o.status)))
        else
          var team := ResolveTeam(choice, o.team1, o.team2);
          if team.None? then Outcome(s1, Err(BadTeam))
          else if amount <= 0 then Outcome(s1, Err(NonPositiveAmount))
          else if amount < MinimumBet then Outcome(s1, Err(BelowMinimum))
          else if users[uid].reiatsu < amount then Outcome(s1, Err(InsufficientFunds))
          else if uid in o.bets then Outcome(s1, Err(DuplicateBet))
          else
            var ret := PotentialReturn(amount, o.profitPercentage);
            var ref := BetRef(mid, team.value, amount, ret, MatchDescription(o));
            Outcome(State(users[uid := Debit(users[uid], ref)],
                          s.active[mid := WithBet(o, uid, Bet(team.value, amount, ret, userName))],
                          s.results, s.frozen), Ok)
  }

  /** A bet is accepted exactly when every check passes. */
  lemma PlaceBetAccepted(s: State, uid: UserId, userName: string, mid: MatchId, choice: string, amount: int)
    ensures PlaceBet(s, uid, userName, mid, choice, amount).reply.Ok? <==>
              && !s.frozen
              && mid in s.active
              && s.active[mid].status.Open?
              && ResolveTeam(choice, s.active[mid].team1, s.active[mid].team2).Some?
              && amount >= MinimumBet
              && InitUser(s.users, uid)[uid].reiatsu >= amount
              && uid !in s.active[mid].bets
  {
  }

  /** What an accepted bet does: the stake leaves the bettor's balance (which
      stays non-negative), the bet with its potential return is stored under
      the bettor's id and counted in its team's total, and the bettor's account
      gains a reference to it; nothing else changes. */
  lemma PlaceBetEffect(s: State, uid: UserId, userName: string, mid: MatchId, choice: string, amount: int)
    requires PlaceBet(s, uid, userName, mid, choice, amount).reply.Ok?
    ensures var r := PlaceBet(s, uid, userName, mid, choice, amount).state;
            var users := InitUser(s.users, uid);
            var o := s.active[mid];
            var team := ResolveTeam(choice, o.team1, o.team2).value;
            var ret := PotentialReturn(amount, o.profitPercentage);
            && uid !in o.bets
            && r.users.Keys == users.Keys && r.active.Keys == s.active.Keys
            && (forall u :: u in users && u != uid ==> r.users[u] == users[u])
            && (forall m :: m in s.active && m != mid ==> r.active[m] == s.active[m])
            && r.users[uid].reiatsu == users[uid].reiatsu - amount >= 0
            && r.users[uid].activeBets
               == users[uid].activeBets + [BetRef(mid, team, amount, ret, MatchDescription(o))]
            && r.active[mid].bets == o.bets[uid := Bet(team, amount, ret, userName)]
            && r.active[mid].totalTeam1 + r.active[mid].totalTeam2 == o.totalTeam1 + o.totalTeam2 + amount
            && r.active[mid].totalTeam1 == o.totalTeam1 + (if team == Team1 then amount else 0)
            && r.active[mid].totalTeam2 == o.totalTeam2 + (if team == Team2 then amount else 0)
            && r.active[mid].totalCount == o.totalCount + 1
            && r.users[uid].(reiatsu := users[uid].reiatsu, activeBets := users[uid].activeBets) == users[uid]
            && r.active[mid].(bets := o.bets, totalTeam1 := o.totalTeam1, totalTeam2 := o.totalTeam2,
                              totalCount := o.totalCount) == o
  {
  }

  /** `deletebet`: refuses a missing offer, a user without a bet on it, and an
      offer that is not open; otherwise removes the bet, lowers the team total
      and the count, refunds the stake and drops the match from the user's
      references. The account is created first, as in `bet`. */
  function DeleteBet(s: State, uid: UserId, mid: MatchId): (r: Outcome)
    ensures r.state.results == s.results && r.state.frozen == s.frozen
    ensures r.reply.Ok? <==>
              mid in s.active && uid in s.active[mid].bets && s.active[mid].status.Open?
    ensures r.reply.Err? ==> r.state == s.(users := InitUser(s.users, uid))
  {
    var users := InitUser(s.users, uid);
    var s1 := s.(users := users);
    if mid !in s.active then Outcome(s1, Err(NotFound))
    else
      var o := s.active[mid];
      if uid !in o.bets then Outcome(s1, Err(NoSuchBet))
      else if !o.status.Open? then Outcome(s1, Err(WrongState(o.status)))
      else
        Outcome(State(users[uid := Refund(users[uid], o.bets[uid].amount, mid)],
                      s.active[mid := WithoutBet(o, uid)],
                      s.results, s.frozen), Ok)
  }

  /** What an accepted cancellation does: the stake returns to the bettor, the
      bet leaves the offer and its team's total, and the account no longer
      refers to the match; nothing else changes. */
  lemma DeleteBetEffect(s: State, uid: UserId, mid: MatchId)
    requires DeleteBet(s, uid, mid).reply.Ok?
    ensures var r := DeleteBet(s, uid, mid).state;
            var users := InitUser(s.users, uid);
            var o := s.active[mid];
            && r.users.Keys == users.Keys && r.active.Keys == s.active.Keys
            && (forall u :: u in users && u != uid ==> r.users[u] == users[u])
            && (forall m :: m in s.active && m != mid ==> r.active[m] == s.active[m])
            && r.users[uid].reiatsu == users[uid].reiatsu + o.bets[uid].amount
            && RefCount(r.users[uid].activeBets, mid) == 0
            && (forall m :: m != mid ==>
                  RefCount(r.users[uid].activeBets, m) == RefCount(users[uid].activeBets, m))
            && r.active[mid].bets == o.bets - {uid}
            && r.active[mid].totalTeam1 + r.active[mid].totalTeam2
               == o.totalTeam1 + o.totalTeam2 - o.bets[uid].amount
            && r.active[mid].totalTeam1
               == o.totalTeam1 - (if o.bets[uid].team == Team1 then o.bets[uid].amount else 0)
            && r.active[mid].totalTeam2
               == o.totalTeam2 - (if o.bets[uid].team == Team2 then o.bets[uid].amount else 0)
            && r.active[mid].totalCount == o.totalCount - 1
            && r.users[uid].(reiatsu := users[uid].reiatsu, activeBets := users[uid].activeBets) == users[uid]
            && r.active[mid].(bets := o.bets, totalTeam1 := o.totalTeam1, totalTeam2 := o.totalTeam2,
                              totalCount := o.totalCount) == o
  {
    var refs := InitUser(s.users, uid)[uid].activeBets;
    forall m ensures RefCount(StripMatch(refs, mid), m) == if m == mid then 0 else RefCount(refs, m) {
      RefCountStrip(refs, mid, m);
    }
  }

  /** Recording a valid bet of a known user on an active offer, with its reference, keeps the invariant. */
  lemma InsertBetKeepsValid(s: State, uid: UserId, mid: MatchId, b: Bet, ref: BetRef)
    requires Valid(s) && uid in s.users && mid in s.active && uid !in s.active[mid].bets
    requires b.amount >= MinimumBet
    requires b.potentialReturn == PotentialReturn(b.amount, s.active[mid].profitPercentage)
    requires ref.matchId == mid
    ensures Valid(State(s.users[uid := Debit(s.users[uid], ref)],
                        s.active[mid := WithBet(s.active[mid], uid, b)], s.results, s.frozen))
  {
    InsertBetShaped(s, uid, mid, b, ref);
    InsertBetTallied(s, uid, mid, b);
    InsertBetPriced(s, uid, mid, b);
    InsertBetRefs(s, uid, mid, b, ref);
  }

  lemma InsertBetRefs(s: State, uid: UserId, mid: MatchId, b: Bet, ref: BetRef)
    requires Valid(s) && uid in s.users && mid in s.active && uid !in s.active[mid].bets
    requires ref.matchId == mid
    ensures RefsMatch(s.users[uid := Debit(s.users[uid], ref)], s.active[mid := WithBet(s.active[mid], uid, b)])
  {
    DebitKeepsRefs(s.users, s.active, uid, mid, b, ref);
  }

  lemma InsertBetShaped(s: State, uid: UserId, mid: MatchId, b: Bet, ref: BetRef)
    requires Valid(s) && uid in s.users && mid in s.active
    ensures AllShaped(s.active[mid := WithBet(s.active[mid], uid, b)])
    ensures BettorsKnown(s.active[mid := WithBet(s.active[mid], uid, b)],
                         s.users[uid := Debit(s.users[uid], ref)])
  {
    var o := s.active[mid];
    var o' := WithBet(o, uid, b);
    assert OfferShaped(o, mid);
    PutShaped(s.active, mid, o');
    PutBettors(s.active, s.users, mid, o');
    GrowBettors(s.active[mid := o'], s.users, s.users[uid := Debit(s.users[uid], ref)]);
  }

  lemma InsertBetTallied(s: State, uid: UserId, mid: MatchId, b: Bet)
    requires Valid(s) && mid in s.active && uid !in s.active[mid].bets
    ensures AllTallied(s.active[mid := WithBet(s.active[mid], uid, b)])
  {
    var o := s.active[mid];
    assert Tallied(o);
    WithBetTallied(o, uid, b);
    PutTallied(s.active, mid, WithBet(o, uid, b));
  }

  lemma InsertBetPriced(s: State, uid: UserId, mid: MatchId, b: Bet)
    requires Valid(s) && mid in s.active
    requires b.amount >= MinimumBet
    requires b.potentialReturn == PotentialReturn(b.amount, s.active[mid].profitPercentage)
    ensures AllPriced(s.active[mid := WithBet(s.active[mid], uid, b)])
  {
    var o := s.active[mid];
    assert BetsPriced(o);
    WithBetPriced(o, uid, b);
    PutPriced(s.active, mid, WithBet(o, uid, b));
  }

  /** Taking a bet out of an active offer and refunding its bettor keeps the invariant. */
  lemma RemoveBetKeepsValid(s: State, uid: UserId, mid: MatchId)
    requires Valid(s) && mid in s.active && uid in s.active[mid].bets
    ensures var o := s.active[mid];
            Valid(State(s.users[uid := Refund(s.users[uid], o.bets[uid].amount, mid)],
                        s.active[mid := WithoutBet(o, uid)], s.results, s.frozen))
  {
    var o := s.active[mid];
    var o' := WithoutBet(o, uid);
    var users' := s.users[uid := Refund(s.users[uid], o.bets[uid].amount, mid)];
    assert OfferShaped(o, mid) && Tallied(o) && BetsPriced(o);
    WithoutBetTallied(o, uid);
    WithoutBetPriced(o, uid);
    PutShaped(s.active, mid, o');
    PutTallied(s.active, mid, o');
    PutPriced(s.active, mid, o');
    PutBettors(s.active, s.users, mid, o');
    GrowBettors(s.active[mid := o'], s.users, users');
    RefundKeepsRefs(s.users, s.active, uid, mid, o.bets[uid].amount);
  }

  /** The ledger an accepted bet leaves, in terms of the bet and the reference it records. */
  lemma PlaceBetOkState(s: State, uid: UserId, userName: string, mid: MatchId, choice: string, amount: int)
    requires PlaceBet(s, uid, userName, mid, choice, amount).reply.Ok?
    ensures var users := InitUser(s.users, uid);
            var o := s.active[mid];
            var team := ResolveTeam(choice, o.team1, o.team2).value;
            var ret := PotentialReturn(amount, o.profitPercentage);
            var ref := BetRef(mid, team, amount, ret, MatchDescription(o));
            && !s.frozen && uid in users && uid !in o.bets && amount >= MinimumBet && o.status.Open?
            && PlaceBet(s, uid, userName, mid, choice, amount).state
               == State(users[uid := Debit(users[uid], ref)],
                        s.active[mid := WithBet(o, uid, Bet(team, amount, ret, userName))], s.results, s.frozen)
  {
  }

  lemma PlaceBetKeepsValid(
    s: State, uid: UserId, userName: string, mid: MatchId, choice: string, amount: int)
    requires Valid(s)
    ensures Valid(PlaceBet(s, uid, userName, mid, choice, amount).state)
  {
    if !s.frozen {
      var users := InitUser(s.users, uid);
      AccountUpdateKeepsValid(s, users);
      if PlaceBet(s, uid, userName, mid, choice, amount).reply.Ok? {
        PlaceBetOkState(s, uid, userName, mid, choice, amount);
        var o := s.active[mid];
        var team := ResolveTeam(choice, o.team1, o.team2).value;
        var ret := PotentialReturn(amount, o.profitPercentage);
        InsertBetKeepsValid(s.(users := users), uid, mid, Bet(team, amount, ret, userName),
                            BetRef(mid, team, amount, ret, MatchDescription(o)));
      }
    }
  }

  lemma DeleteBetKeepsValid(s: State, uid: UserId, mid: MatchId)
    requires Valid(s)
    ensures Valid(DeleteBet(s, uid, mid).state)
  {
    var users := InitUser(s.users, uid);
    AccountUpdateKeepsValid(s, users);
    if DeleteBet(s, uid, mid).reply.Ok? {
      RemoveBetKeepsValid(s.(users := users), uid, mid);
    }
  }

  /** Cancelling a bet right after placing it gives back exactly the ledger the
      bet was placed on (with the bettor's account created if it was new). */
  lemma PlaceThenDeleteRestores(
    s: State, uid: UserId, userName: string, mid: MatchId, choice: string, amount: int)
    requires RefsMatch(s.users, s.active)
    requires PlaceBet(s, uid, userName, mid, choice, amount).reply.Ok?
    ensures var placed := PlaceBet(s, uid, userName, mid, choice, amount).state;
            && DeleteBet(placed, uid, mid).reply.Ok?
            && DeleteBet(placed, uid, mid).state == s.(users := InitUser(s.users, uid))
  {
    PlaceBetOkState(s, uid, userName, mid, choice, amount);
    var users := InitUser(s.users, uid);
    var o := s.active[mid];
    var team := ResolveTeam(choice, o.team1, o.team2).value;
    var ret := PotentialReturn(amount, o.profitPercentage);
    var ref := BetRef(mid, team, amount, ret, MatchDescription(o));
    var b := Bet(team, amount, ret, userName);
    var a := users[uid];
    assert RefCount(a.activeBets, mid) == 0 by {
      if uid in s.users {
        assert UserRefs(s.users[uid].activeBets, uid, s.active);
      }
    }
    RefundDebit(a, ref);
    WithoutWithBet(o, uid, b);
    DeleteAfterPlace(State(users, s.active, s.results, s.frozen), uid, mid, o, b, ref);
  }

  /** `DeleteBet` on the ledger an accepted bet leaves. */
  lemma DeleteAfterPlace(s: State, uid: UserId, mid: MatchId, o: Offer, b: Bet, ref: BetRef)
    requires uid in s.users && mid in s.active && s.active[mid] == o && o.status.Open?
    requires Refund(Debit(s.users[uid], ref), b.amount, mid) == s.users[uid]
    requires WithoutBet(WithBet(o, uid, b), uid) == o
    ensures var placed := State(s.users[uid := Debit(s.users[uid], ref)],
                                s.active[mid := WithBet(o, uid, b)], s.results, s.frozen);
            && DeleteBet(placed, uid, mid).reply.Ok?
            && DeleteBet(placed, uid, mid).state == s
  {
    var placed := State(s.users[uid := Debit(s.users[uid], ref)],
                        s.active[mid := WithBet(o, uid, b)], s.results, s.frozen);
    assert InitUser(placed.users, uid) == placed.users;
    assert placed.users[uid := s.users[uid]] == s.users;
    assert placed.active[mid := o] == s.active;
  }

  /** Placing or cancelling a bet moves the stake between the bettor's balance
      and the offers' pools: balances plus escrow stay the same. */
  lemma PlaceBetConservesMoney(
    s: State, uid: UserId, userName: string, mid: MatchId, choice: string, amount: int)
    requires PlaceBet(s, uid, userName, mid, choice, amount).reply.Ok?
    ensures var r := PlaceBet(s, uid, userName, mid, choice, amount).state;
            TotalReiatsu(r.users) + Escrow(r.active)
            == TotalReiatsu(InitUser(s.users, uid)) + Escrow(s.active)
  {
    var r := PlaceBet(s, uid, userName, mid, choice, amount).state;
    var users := InitUser(s.users, uid);
    PlaceBetEffect(s, uid, userName, mid, choice, amount);
    SumOverChangeOne(users.Keys, BalanceFn(users), BalanceFn(r.users), uid);
    SumOverChangeOne(s.active.Keys, PoolFn(s.active), PoolFn(r.active), mid);
  }

  lemma DeleteBetConservesMoney(s: State, uid: UserId, mid: MatchId)
    requires DeleteBet(s, uid, mid).reply.Ok?
    ensures var r := DeleteBet(s, uid, mid).state;
            TotalReiatsu(r.users) + Escrow(r.active)
            == TotalReiatsu(InitUser(s.users, uid)) + Escrow(s.active)
  {
    var r := DeleteBet(s, uid, mid).state;
    var users := InitUser(s.users, uid);
    DeleteBetEffect(s, uid, mid);
    SumOverChangeOne(users.Keys, BalanceFn(users), BalanceFn(r.users), uid);
    SumOverChangeOne(s.active.Keys, PoolFn(s.active), PoolFn(r.active), mid);
  }

  /** After a successful bet, every further bet by the same user on the same
      offer is refused, whatever team and amount; it is refused as a duplicate
      whenever the earlier checks pass. */
  lemma SecondBetRefused(
    s: State, uid: UserId, userName: string, mid: MatchId, choice: string, amount: int,
    userName2: string, choice2: string, amount2: int)
    requires PlaceBet(s, uid, userName, mid, choice, amount).reply.Ok?
    ensures var placed := PlaceBet(s, uid, userName, mid, choice, amount).state;
            var o := placed.active[mid];
            var again := PlaceBet(placed, uid, userName2, mid, choice2, amount2).reply;
            && again.Err?
            && ((ResolveTeam(choice2, o.team1, o.team2).Some? && amount2 >= MinimumBet
                 && placed.users[uid].reiatsu >= amount2) ==> again == Err(DuplicateBet))
  {
    PlaceBetEffect(s, uid, userName, mid, choice, amount);
  }

  /** Locking an offer stops all betting on it. */
  lemma LockedOfferRefusesBets(
    s: State, mid: MatchId, now: Timestamp, uid: UserId, userName: string, choice: string, amount: int)
    requires LockOffer(s, mid, now).reply.Ok?
    ensures PlaceBet(LockOffer(s, mid, now).state, uid, userName, mid, choice, amount).reply
            == if s.frozen then Err(Frozen) else Err(WrongState(Locked))
  {
  }

  /** Reopening a locked offer lets a bet through again when everything else is in order. */
  lemma UnlockedOfferAcceptsBets(
    s: State, mid: MatchId, uid: UserId, userName: string, choice: string, amount: int)
    requires UnlockOffer(s, mid).reply.Ok?
    requires !s.frozen
    requires ResolveTeam(choice, s.active[mid].team1, s.active[mid].team2).Some?
    requires amount >= MinimumBet && InitUser(s.users, uid)[uid].reiatsu >= amount
    requires uid !in s.active[mid].bets
    ensures PlaceBet(UnlockOffer(s, mid).state, uid, userName, mid, choice, amount).reply.Ok?
  {
  }

  // ---------------------------------------------------------------------------
  // Settlement

  /** What settlement does to one account: a winner is paid the bet's return
      and credited its profit, a loser keeps its balance, and either loses the
      match from its references; accounts without a bet are untouched. */
  function SettleAccount(a: Account, u: UserId, bets: map<UserId, Bet>, winner: Team, mid: MatchId)
    : (r: Account)
    ensures u !in bets ==> r == a
    ensures u in bets ==> r.activeBets == StripMatch(a.activeBets, mid) && RefCount(r.activeBets, mid) == 0
    ensures u in bets && bets[u].team == winner ==>
              && r.reiatsu == a.reiatsu + bets[u].potentialReturn
              && r.totalWinnings == a.totalWinnings + bets[u].potentialReturn - bets[u].amount
    ensures u in bets && bets[u].team != winner ==>
              r.reiatsu == a.reiatsu && r.totalWinnings == a.totalWinnings
    ensures r.(reiatsu := a.reiatsu, totalWinnings := a.totalWinnings, activeBets := a.activeBets) == a
  {
    if u !in bets then a
    else
      RefCountStrip(a.activeBets, mid, mid);
      if bets[u].team == winner then
        var won := bets[u].potentialReturn;
        a.(reiatsu := a.reiatsu + won,
           totalWinnings := a.totalWinnings + (won - bets[u].amount),
           activeBets := StripMatch(a.activeBets, mid))
      else a.(activeBets := StripMatch(a.activeBets, mid))
  }

  /** Every account settled against the same bets. */
  function SettleAll(users: map<UserId, Account>, bets: map<UserId, Bet>, winner: Team, mid: MatchId)
    : (r: map<UserId, Account>)
    ensures r.Keys == users.Keys
    ensures forall u :: u in users && u !in bets ==> r[u] == users[u]
    ensures forall u :: u in users && u in bets ==> RefCount(r[u].activeBets, mid) == 0
    ensures forall u :: u in users && u in bets && bets[u].team == winner ==>
              r[u].reiatsu == users[u].reiatsu + bets[u].potentialReturn
    ensures forall u :: u in users && u in bets && bets[u].team != winner ==>
              r[u].reiatsu == users[u].reiatsu
  {
    map u | u in users :: SettleAccount(users[u], u, bets, winner, mid)
  }

  function TeamNumber(w: int): Team
    requires w == 1 || w == 2
  {
    if w == 1 then Team1 else Team2
  }

  /** `result`: refuses a missing offer and a winning team other than 1 or 2;
      otherwise, whatever the offer's status, marks it completed, settles every
      bettor that has an account, and moves the offer from the active offers to
      the results (replacing an earlier result under the same id). */
  function EndOffer(s: State, mid: MatchId, w: int, now: Timestamp): (r: Outcome)
    ensures r.reply == Err(NotFound) <==> mid !in s.active
    ensures r.reply.Ok? <==> mid in s.active && (w == 1 || w == 2)
    ensures r.reply.Err? ==> r.state == s
    ensures r.reply.Ok? ==>
              && r.state.frozen == s.frozen
              && r.state.active == s.active - {mid}
              && mid in r.state.results
              && r.state.results == s.results[mid := r.state.results[mid]]
              && r.state.results[mid]
                 == s.active[mid].(status := Completed, completedAt := Some(now), winningTeam := Some(w))
              && r.state.users.Keys == s.users.Keys
  {
    if mid !in s.active then Outcome(s, Err(NotFound))
    else if w != 1 && w != 2 then Outcome(s, Err(BadWinningTeam))
    else
      var o := s.active[mid].(status := Completed, completedAt := Some(now), winningTeam := Some(w));
      var team := TeamNumber(w);
      var users := SettleAll(s.users, o.bets, team, mid);
      Outcome(State(users, s.active - {mid}, s.results[mid := o], s.frozen), Ok)
  }

  /** Every account is settled against the offer's bets and the winning team. */
  lemma EndOfferSettles(s: State, mid: MatchId, w: int, now: Timestamp)
    requires EndOffer(s, mid, w, now).reply.Ok?
    ensures var r := EndOffer(s, mid, w, now).state;
            forall u :: u in s.users ==>
              r.users[u] == SettleAccount(s.users[u], u, s.active[mid].bets, TeamNumber(w), mid)
  {
  }

  lemma EndOfferKeepsValid(s: State, mid: MatchId, w: int, now: Timestamp)
    requires Valid(s)
    ensures Valid(EndOffer(s, mid, w, now).state)
  {
    var r := EndOffer(s, mid, w, now);
    if r.reply.Ok? {
      DropOffer(s.active, s.users, mid);
      GrowBettors(s.active - {mid}, s.users, r.state.users);
      EndOfferKeepsRefs(s, mid, w, now);
    }
  }

  lemma EndOfferKeepsRefs(s: State, mid: MatchId, w: int, now: Timestamp)
    requires RefsMatch(s.users, s.active)
    requires EndOffer(s, mid, w, now).reply.Ok?
    ensures var r := EndOffer(s, mid, w, now).state;
            RefsMatch(r.users, r.active)
  {
    EndOfferSettles(s, mid, w, now);
    SettleKeepsRefs(s.users, s.active, mid, EndOffer(s, mid, w, now).state.users);
  }

  /** A settled offer is gone from the active offers: settling, locking or
      betting on it again is refused as not found. */
  lemma SettledOfferIsGone(s: State, mid: MatchId, w: int, now: Timestamp,
                           w2: int, now2: Timestamp, uid: UserId, userName: string, choice: string, amount: int)
    requires EndOffer(s, mid, w, now).reply.Ok?
    ensures var settled := EndOffer(s, mid, w, now).state;
            && EndOffer(settled, mid, w2, now2).reply == Err(NotFound)
            && LockOffer(settled, mid, now2).reply == Err(NotFound)
            && (!s.frozen ==> PlaceBet(settled, uid, userName, mid, choice, amount).reply == Err(NotFound))
  {
  }

  /** What settlement pays the winners on team `t` among `bets`. */
  function WinningsFn(bets: map<UserId, Bet>, t: Team, pct: int): UserId -> int
  {
    u => if u in bets && bets[u].team == t then PotentialReturn(bets[u].amount, pct) else 0
  }

  /** Settlement pays out, in total, the potential returns of the winning bets
      of bettors with an account, and the offer's pool leaves escrow. */
  lemma EndOfferPayout(s: State, mid: MatchId, w: int, now: Timestamp)
    requires AllPriced(s.active)
    requires EndOffer(s, mid, w, now).reply.Ok?
    ensures var r := EndOffer(s, mid, w, now).state;
            var o := s.active[mid];
            && TotalReiatsu(r.users)
               == TotalReiatsu(s.users) + SumOver(s.users.Keys, WinningsFn(o.bets, TeamNumber(w), o.profitPercentage))
            && Escrow(r.active) == Escrow(s.active) - (o.totalTeam1 + o.totalTeam2)
  {
    var r := EndOffer(s, mid, w, now).state;
    var o := s.active[mid];
    EndOfferSettles(s, mid, w, now);
    assert BetsPriced(o);
    SumOverAdd(s.users.Keys, BalanceFn(s.users), WinningsFn(o.bets, TeamNumber(w), o.profitPercentage),
               BalanceFn(r.users));
    SumOverRemove(s.active.Keys, PoolFn(s.active), mid);
    SumOverPointwise(r.active.Keys, PoolFn(s.active), PoolFn(r.active));
  }

  /** In a valid ledger every bettor has an account, so settlement pays the
      sum, over the winning bets, of stake plus rounded-down profit. */
  lemma EndOfferPaysEveryWinner(s: State, mid: MatchId, w: int, now: Timestamp)
    requires Valid(s)
    requires EndOffer(s, mid, w, now).reply.Ok?
    ensures var r := EndOffer(s, mid, w, now).state;
            var o := s.active[mid];
            TotalReiatsu(r.users)
            == TotalReiatsu(s.users) + SumOver(o.bets.Keys, WinningsFn(o.bets, TeamNumber(w), o.profitPercentage))
  {
    var o := s.active[mid];
    EndOfferPayout(s, mid, w, now);
    assert o.bets.Keys <= s.users.Keys;
    SumOverZeroOutside(s.users.Keys, o.bets.Keys, WinningsFn(o.bets, TeamNumber(w), o.profitPercentage));
  }

  /** The registry only checks active ids: a settled id can be offered again,
      and settling that new offer replaces the archived result. */
  lemma SettledIdCanBeReused(s: State, mid: MatchId, w: int, now: Timestamp,
                             team1: string, team2: string, pct: int, w2: int, now2: Timestamp)
    requires EndOffer(s, mid, w, now).reply.Ok?
    requires pct >= 0 && (w2 == 1 || w2 == 2)
    ensures var settled := EndOffer(s, mid, w, now).state;
            var again := CreateOffer(settled, mid, team1, team2, pct, now2);
            && again.reply.Ok?
            && var resettled := EndOffer(again.state, mid, w2, now2);
               && resettled.reply.Ok?
               && resettled.state.results[mid].winningTeam == Some(w2)
               && resettled.state.results[mid].team1 == team1
  {
  }
}

=== FILE: economy.dfy ===
/** The bot's global, mutable state: the user accounts, the active offers, the
    settled offers, the freeze flag and the shop catalogue, and the commands
    that update them in place. Each command is proved to leave exactly the
    state the matching function of `Accounts`, `Betting` or `Shop` describes,
    and to keep the ledger and catalogue invariants. */
module Bot {
  import opened Model
  import Accounts
  import Betting
  import Shop

  /** The loop of `result` over an offer's bets: each bettor with an account
      is paid the bet's return if its team won, and loses the match from its
      references either way. The bets are visited in any order. */
  method SettleBets(accounts: map<UserId, Account>, bets: map<UserId, Bet>, team: Team, mid: MatchId)
    returns (settled: map<UserId, Account>)
    ensures settled == Betting.SettleAll(accounts, bets, team, mid)
  {
    settled := accounts;
    var pending := bets.Keys;
    while pending != {}
      invariant pending <= bets.Keys
      invariant settled.Keys == accounts.Keys
      invariant forall u :: u in settled ==>
                  settled[u] == if u in pending then accounts[u]
                                else Betting.SettleAccount(accounts[u], u, bets, team, mid)
      decreases |pending|
    {
      var u :| u in pending;
      if u in settled {
        var a := settled[u];
        var b := bets[u];
        if b.team == team {
          a := a.(reiatsu := a.reiatsu + b.potentialReturn,
                  totalWinnings := a.totalWinnings + (b.potentialReturn - b.amount),
                  activeBets := Betting.StripMatch(a.activeBets, mid));
        } else {
          a := a.(activeBets := Betting.StripMatch(a.activeBets, mid));
        }
        assert a == Betting.SettleAccount(accounts[u], u, bets, team, mid);
        settled := settled[u := a];
      }
      pending := pending - {u};
    }
  }

  /** The loop of `massadd`: every account in turn is moved by `delta` in
      currency `c` and put back to zero if it went negative. */
  method AdjustAll(accounts: map<UserId, Account>, c: Currency, delta: int)
    returns (adjusted: map<UserId, Account>)
    ensures adjusted == Accounts.AdjustAll(accounts, c, delta)
  {
    adjusted := accounts;
    var pending := accounts.Keys;
    while pending != {}
      invariant pending <= adjusted.Keys == accounts.Keys
      invariant forall u :: u in pending ==> adjusted[u] == accounts[u]
      invariant forall u :: u !in pending && u in adjusted ==> adjusted[u] == Accounts.Adjust(accounts[u], c, delta)
      decreases pending
    {
      var u :| u in pending;
      var a := adjusted[u];
      match c {
        case Reiatsu =>
          var v := a.reiatsu + delta;
          if v < 0 {
            v := 0;
          }
          a := a.(reiatsu := v);
        case SoulFragments =>
          var v := a.soulFragments + delta;
          if v < 0 {
            v := 0;
          }
          a := a.(soulFragments := v);
      }
      assert a == Accounts.Adjust(accounts[u], c, delta);
      adjusted := adjusted[u := a];
      pending := pending - {u};
    }
  }

  class Economy {
    var users: map<UserId, Account>
    var activeOffers: map<MatchId, Offer>
    var offerResults: map<MatchId, Offer>
    var economyFrozen: bool
    var shopItems: Shop.Catalogue

    /** The part of the state the betting and account commands work on. */
    function Ledger(): Betting.State
      reads this
    {
      Betting.State(users, activeOffers, offerResults, economyFrozen)
    }

    /** The ledger invariant and the catalogue invariant. Every method below
        leaves exactly the state of a command function, and each of those
        functions is proved to keep the invariant (`Betting.PlaceBetKeepsValid`,
        `Shop.AddItemKeepsValid` and their siblings). */
    ghost predicate Valid()
      reads this
    {
      Betting.Valid(Ledger()) && Shop.ShopValid(shopItems)
    }

    /** The state before any data is loaded: everything empty, nothing frozen. */
    constructor ()
      ensures Valid()
      ensures users == map[] && activeOffers == map[] && offerResults == map[]
      ensures !economyFrozen && shopItems == map[]
    {
      users := map[];
      activeOffers := map[];
      offerResults := map[];
      economyFrozen := false;
      shopItems := map[];
      Betting.EmptyValid();
    }

    /** `init_user`: a default account for an id seen for the first time. */
    method InitUser(uid: UserId)
      modifies this
      ensures users == Accounts.InitUser(old(users), uid)
      ensures activeOffers == old(activeOffers) && offerResults == old(offerResults)
      ensures economyFrozen == old(economyFrozen) && shopItems == old(shopItems)
    {
      if uid !in users {
        users := users[uid := NewAccount()];
      }
    }

    /** `economyfreeze` (`frozen` true) and `economyunfreeze` (`frozen` false). */
    method SetFrozen(frozen: bool)
      modifies this
      ensures Ledger() == old(Ledger()).(frozen := frozen) && shopItems == old(shopItems)
    {
      economyFrozen := frozen;
    }

    // -------------------------------------------------------------------------
    // Offers

    /** `newoffer`. */
    method NewOffer(mid: MatchId, team1: string, team2: string, pct: int, now: Timestamp)
      returns (reply: Reply)
      modifies this
      ensures var r := Betting.CreateOffer(old(Ledger()), mid, team1, team2, pct, now);
              Ledger() == r.state && reply == r.reply
      ensures shopItems == old(shopItems)
    {
      if pct < 0 {
        return Err(NegativePercentage);
      }
      if mid in activeOffers {
        return Err(DuplicateId);
      }
      activeOffers := activeOffers[mid := Betting.NewOffer(mid, team1, team2, pct, now)];
      reply := Ok;
    }

    /** `lockoffer`. */
    method LockOffer(mid: MatchId, now: Timestamp) returns (reply: Reply)
      modifies this
      ensures var r := Betting.LockOffer(old(Ledger()), mid, now);
              Ledger() == r.state && reply == r.reply
      ensures shopItems == old(shopItems)
    {
      if mid !in activeOffers {
        return Err(NotFound);
      }
      var o := activeOffers[mid];
      if !o.status.Open? {
        return Err(WrongState(o.status));
      }
      activeOffers := activeOffers[mid := o.(status := Locked, lockedAt := Some(now))];
      reply := Ok;
    }

    /** `unlockoffer`. */
    method UnlockOffer(mid: MatchId) returns (reply: Reply)
      modifies this
      ensures var r := Betting.UnlockOffer(old(Ledger()), mid);
              Ledger() == r.state && reply == r.reply
      ensures shopItems == old(shopItems)
    {
      if mid !in activeOffers {
        return Err(NotFound);
      }
      var o := activeOffers[mid];
      if !o.status.Locked? {
        return Err(WrongState(o.status));
      }
      activeOffers := activeOffers[mid := o.(status := Open, lockedAt := None)];
      reply := Ok;
    }

    // -------------------------------------------------------------------------
    // Bets

    /** `bet`: the account is created first, then the checks run in the bot's
        order; an accepted bet debits the stake, appends the reference and
        records the bet in the offer. */
    method PlaceBet(uid: UserId, userName: string, mid: MatchId, choice: string, amount: int)
      returns (reply: Reply)
      modifies this
      ensures var r := Betting.PlaceBet(old(Ledger()), uid, userName, mid, choice, amount);
              Ledger() == r.state && reply == r.reply
      ensures shopItems == old(shopItems)
    {
      if economyFrozen {
        return Err(Frozen);
      }
      var accounts := Accounts.InitUser(users, uid);
      var offers := activeOffers;
      reply := Ok;
      if mid !in offers {
        reply := Err(NotFound);
      } else {
        var o := offers[mid];
        var team := Betting.ResolveTeam(choice, o.team1, o.team2);
        if !o.status.Open? {
          reply := Err(WrongState(o.status));
        } else if team.None? {
          reply := Err(BadTeam);
        } else if amount <= 0 {
          reply := Err(NonPositiveAmount);
        } else if amount < Betting.MinimumBet {
          reply := Err(BelowMinimum);
        } else if accounts[uid].reiatsu < amount {
          reply := Err(InsufficientFunds);
        } else if uid in o.bets {
          reply := Err(DuplicateBet);
        } else {
          var ret := Betting.PotentialReturn(amount, o.profitPercentage);
          var ref := BetRef(mid, team.value, amount, ret, Betting.MatchDescription(o));
          accounts := accounts[uid := Betting.Debit(accounts[uid], ref)];
          offers := offers[mid := Betting.WithBet(o, uid, Bet(team.value, amount, ret, userName))];
        }
      }
      users, activeOffers := accounts, offers;
    }

    /** `deletebet`: the account is created first; an accepted cancellation
        refunds the stake, drops the reference and takes the bet out of the offer. */
    method DeleteBet(uid: UserId, mid: MatchId) returns (reply: Reply)
      modifies this
      ensures var r := Betting.DeleteBet(old(Ledger()), uid, mid);
              Ledger() == r.state && reply == r.reply
      ensures shopItems == old(shopItems)
    {
      var accounts := Accounts.InitUser(users, uid);
      var offers := activeOffers;
      reply := Ok;
      if mid !in offers {
        reply := Err(NotFound);
      } else {
        var o := offers[mid];
        if uid !in o.bets {
          reply := Err(NoSuchBet);
        } else if !o.status.Open? {
          reply := Err(WrongState(o.status));
        } else {
          accounts := accounts[uid := Betting.Refund(accounts[uid], o.bets[uid].amount, mid)];
          offers := offers[mid := Betting.WithoutBet(o, uid)];
        }
      }
      users, activeOffers := accounts, offers;
    }

    /** `result`: marks the offer completed, walks its bets paying each winner
        that has an account and dropping the match from each bettor's
        references, then moves the offer to the results. */
    method EndOffer(mid: MatchId, w: int, now: Timestamp) returns (reply: Reply)
      modifies this
      ensures var r := Betting.EndOffer(old(Ledger()), mid, w, now);
              Ledger() == r.state && reply == r.reply
      ensures shopItems == old(shopItems)
    {
      if mid !in activeOffers {
        return Err(NotFound);
      }
      if w != 1 && w != 2 {
        return Err(BadWinningTeam);
      }
      var o := activeOffers[mid].(status := Completed, completedAt := Some(now), winningTeam := Some(w));
      var team := Betting.TeamNumber(w);
      var accounts := SettleBets(users, o.bets, team, mid);
      users, offerResults, activeOffers := accounts, offerResults[mid := o], activeOffers - {mid};
      reply := Ok;
    }

    // -------------------------------------------------------------------------
    // Accounts

    /** `adreiatsu` / `adfragments`: the account is created, moved by `delta`
        and put back to zero if it went negative. */
    method AddCurrency(uid: UserId, c: Currency, delta: int)
      modifies this
      ensures Ledger() == old(Ledger()).(users := Accounts.AddCurrency(old(users), uid, c, delta))
      ensures shopItems == old(shopItems)
    {
      var accounts := Accounts.InitUser(users, uid);
      var a := accounts[uid];
      match c {
        case Reiatsu =>
          var v := a.reiatsu + delta;
          if v < 0 {
            v := 0;
          }
          a := a.(reiatsu := v);
        case SoulFragments =>
          var v := a.soulFragments + delta;
          if v < 0 {
            v := 0;
          }
          a := a.(soulFragments := v);
      }
      accounts := accounts[uid := a];
      users := accounts;
    }

    /** `massadd` after the confirmation step: every account in turn is moved
        by `delta` and clamped at zero. */
    method MassAdd(currency: string, delta: int, confirmed: bool) returns (reply: Reply)
      modifies this
      ensures var r := Accounts.MassAdd(old(users), currency, delta, confirmed);
              Ledger() == old(Ledger()).(users := r.users) && reply == r.reply
      ensures shopItems == old(shopItems)
    {
      var c := ParseCurrency(currency);
      if c.None? {
        return Err(BadCurrency);
      }
      if !confirmed {
        return Err(Cancelled);
      }
      var accounts := AdjustAll(users, c.value, delta);
      users := accounts;
      reply := Ok;
    }

    /** `setlevel`. */
    method SetLevel(uid: UserId, level: int) returns (reply: Reply)
      modifies this
      ensures var r := Accounts.SetLevel(old(users), uid, level);
              Ledger() == old(Ledger()).(users := r.users) && reply == r.reply
      ensures shopItems == old(shopItems)
    {
      if level < 1 {
        return Err(BadLevel);
      }
      var accounts := Accounts.InitUser(users, uid);
      var a := accounts[uid];
      accounts := accounts[uid := a.(level := level, exp := 0, rank := Accounts.RankForLevel(level, a.rank))];
      users := accounts;
      reply := Ok;
    }

    /** `check_level_up` on an existing account; `levelled` is its return value. */
    method CheckLevelUp(uid: UserId) returns (levelled: bool)
      requires uid in users
      modifies this
      ensures var r := Accounts.LevelUp(old(users)[uid]);
              users == old(users)[uid := r.0] && levelled == r.1
      ensures activeOffers == old(activeOffers) && offerResults == old(offerResults)
      ensures economyFrozen == old(economyFrozen) && shopItems == old(shopItems)
    {
      var data := users[uid];
      if data.exp < 100 {
        return false;
      }
      data := data.(level := data.level + 1, exp := 0);
      if data.level >= 10 && data.rank == AcademyStudent {
        data := data.(rank := UnseatedOfficer);
      } else if data.level >= 20 && data.rank == UnseatedOfficer {
        data := data.(rank := Seat20);
      }
      users := users[uid := data];
      levelled := true;
    }

    /** `give`: a transfer of `amount` reiatsu that loses the fee on the way. */
    method Give(sender: UserId, receiver: UserId, receiverIsBot: bool, amount: int) returns (reply: Reply)
      modifies this
      ensures var r := Accounts.Give(old(users), sender, receiver, receiverIsBot, amount);
              Ledger() == old(Ledger()).(users := r.users) && reply == r.reply
      ensures shopItems == old(shopItems)
    {
      if receiverIsBot || receiver == sender {
        return Err(InvalidTarget);
      }
      if amount <= 0 {
        return Err(NonPositiveAmount);
      }
      var accounts := Accounts.InitUser(Accounts.InitUser(users, sender), receiver);
      reply := Ok;
      if accounts[sender].reiatsu < amount {
        reply := Err(InsufficientFunds);
      } else {
        var fee := if amount / 20 > 1 then amount / 20 else 1;
        var transfer := amount - fee;
        accounts := accounts[sender := accounts[sender].(reiatsu := accounts[sender].reiatsu - amount)];
        accounts := accounts[receiver := accounts[receiver].(reiatsu := accounts[receiver].reiatsu + transfer)];
      }
      users := accounts;
    }

    /** `battle`, with the opponent's answer and the two rolls as inputs: both
        accounts are created, the winner takes the stake from the loser, both
        gain experience and the winner's level is checked. */
    method Battle(challenger: UserId, opponent: Option<UserId>, opponentIsBot: bool, accepted: bool,
                  challengerRoll: int, opponentRoll: int) returns (reply: Reply)
      modifies this
      ensures var r := Accounts.Battle(old(users), challenger, opponent, opponentIsBot, accepted,
                                       challengerRoll, opponentRoll);
              users == r.users && reply == r.reply
      ensures activeOffers == old(activeOffers) && offerResults == old(offerResults)
      ensures economyFrozen == old(economyFrozen) && shopItems == old(shopItems)
    {
      if opponent.None? || opponentIsBot || opponent.value == challenger {
        return Err(InvalidTarget);
      }
      var o := opponent.value;
      users := Accounts.InitUser(Accounts.InitUser(users, challenger), o);
      if users[challenger].reiatsu < Accounts.MinimumBattleBalance
         || users[o].reiatsu < Accounts.MinimumBattleBalance {
        return Err(InsufficientFunds);
      }
      if !accepted {
        return Err(Cancelled);
      }
      var challengerTotal := Accounts.BattlePower(users[challenger]) + challengerRoll;
      var opponentTotal := Accounts.BattlePower(users[o]) + opponentRoll;
      var winner, loser := o, challenger;
      if challengerTotal > opponentTotal {
        winner, loser := challenger, o;
      }
      users := Accounts.Fight(users, winner, loser);
      var _ := CheckLevelUp(winner);
      reply := Ok;
    }

    // -------------------------------------------------------------------------
    // Shop

    /** `init_shop`: an empty catalogue is filled with the default items. */
    method InitShop()
      modifies this
      ensures shopItems == Shop.InitShop(old(shopItems)) && Ledger() == old(Ledger())
    {
      if shopItems == map[] {
        shopItems := Shop.DefaultShop();
      }
    }

    /** `addshopitem`, after `init_shop`. */
    method AddShopItem(id: ItemId, price: int, currency: string, stock: int,
                       text: string, author: string, now: Timestamp) returns (reply: Reply)
      modifies this
      ensures var r := Shop.AddItem(Shop.InitShop(old(shopItems)), id, price, currency, stock, text, author, now);
              shopItems == r.items && reply == r.reply
      ensures Ledger() == old(Ledger())
    {
      InitShop();
      var r := Shop.AddItem(shopItems, id, price, currency, stock, text, author, now);
      shopItems, reply := r.items, r.reply;
    }

    /** `editshopitem`, after `init_shop`. */
    method EditShopItem(id: ItemId, field: string, value: string, author: string, now: Timestamp)
      returns (reply: Reply)
      modifies this
      ensures var r := Shop.EditItem(Shop.InitShop(old(shopItems)), id, field, value, author, now);
              shopItems == r.items && reply == r.reply
      ensures Ledger() == old(Ledger())
    {
      InitShop();
      var r := Shop.EditItem(shopItems, id, field, value, author, now);
      shopItems, reply := r.items, r.reply;
    }

    /** `removeshopitem`, after `init_shop`. */
    method RemoveShopItem(id: ItemId) returns (reply: Reply)
      modifies this
      ensures var r := Shop.RemoveItem(Shop.InitShop(old(shopItems)), id);
              shopItems == r.items && reply == r.reply
      ensures Ledger() == old(Ledger())
    {
      InitShop();
      if id !in shopItems {
        return Err(NotFound);
      }
      shopItems := shopItems - {id};
      reply := Ok;
    }
  }
}

=== FILE: model.dfy ===
/** The entities of the economy: user accounts, betting offers and their bets,
    shop items, and the replies a command gives back instead of a chat message. */
module Model {

  type UserId = string
  type MatchId = string
  type ItemId = string

  /** The bot stores ISO time strings; here a timestamp is an opaque value the caller supplies. */
  type Timestamp = string

  datatype Option<T> = None | Some(value: T)

  /** The two sides of an offer; the bot stores them as the keys 'team1' and 'team2'. */
  datatype Team = Team1 | Team2

  datatype Status = Open | Locked | Completed

  datatype Currency = Reiatsu | SoulFragments

  /** The ten Soul Reaper ranks, in the order of the bot's rank list. */
  datatype Rank =
    | AcademyStudent | UnseatedOfficer | Seat20 | Seat15 | Seat10
    | Seat5 | Seat3 | Lieutenant | Captain | CaptainCommander

  /** Position of a rank in the bot's rank list (what `list.index` returns). */
  function RankIndex(r: Rank): (i: nat)
    ensures i < 10
    ensures i == 0 <==> r == AcademyStudent
  {
    match r
    case AcademyStudent => 0
    case UnseatedOfficer => 1
    case Seat20 => 2
    case Seat15 => 3
    case Seat10 => 4
    case Seat5 => 5
    case Seat3 => 6
    case Lieutenant => 7
    case Captain => 8
    case CaptainCommander => 9
  }

  /** A wager stored in an offer's `bets` map, keyed by the bettor's id. */
  datatype Bet = Bet(team: Team, amount: int, potentialReturn: int, userName: string)

  /** The lightweight copy of a bet kept in the bettor's `active_bets` list, for display. */
  datatype BetRef = BetRef(
    matchId: MatchId, team: Team, amount: int, potentialReturn: int, matchDescription: string)

  datatype Account = Account(
    reiatsu: int,
    soulFragments: int,
    zanpakuto: Option<string>,
    stand: Option<string>,
    rank: Rank,
    level: int,
    exp: int,
    activeBets: seq<BetRef>,
    totalWinnings: int,
    battlesWon: int)

  const StartingReiatsu := 5000

  /** The record `init_user` creates for a user seen for the first time. */
  function NewAccount(): Account
  {
    Account(StartingReiatsu, 0, None, None, AcademyStudent, 1, 0, [], 0, 0)
  }

  datatype Offer = Offer(
    id: MatchId,
    team1: string,
    team2: string,
    profitPercentage: int,
    createdAt: Timestamp,
    lockedAt: Option<Timestamp>,
    completedAt: Option<Timestamp>,
    winningTeam: Option<int>,
    bets: map<UserId, Bet>,
    totalTeam1: int,
    totalTeam2: int,
    totalCount: int,
    status: Status)

  datatype ShopItem = ShopItem(
    name: string,
    description: string,
    price: int,
    currency: Currency,
    category: string,
    stock: int,
    purchasable: bool,
    createdBy: Option<string>,
    createdAt: Option<Timestamp>,
    lastEdited: Option<Timestamp>,
    lastEditedBy: Option<string>)

  /** Why a command was refused; each stands for one of the bot's refusal messages. */
  datatype Error =
    | NotFound            // offer or shop item id unknown
    | NoSuchBet           // the user has no bet on the offer
    | DuplicateId         // offer or shop item id already taken
    | DuplicateBet        // the user already has a bet on the offer
    | WrongState(status: Status)
    | BadTeam             // team choice matches neither team
    | NonPositiveAmount   // an amount, price or stock that is not positive
    | BelowMinimum        // a bet under the minimum stake
    | InsufficientFunds
    | Frozen              // economy frozen by an administrator
    | NegativePercentage
    | BadWinningTeam      // winning team other than 1 or 2
    | InvalidTarget       // no opponent, a bot, or oneself
    | BadLevel
    | BadCurrency
    | BadFormat           // item text without the '|' separator
    | BadField            // field name outside the editable fields
    | NotANumber
    | Cancelled           // confirmation declined or timed out

  datatype Reply = Ok | Err(error: Error)

  /** The two currency names the admin commands accept. */
  function ParseCurrency(s: string): (r: Option<Currency>)
    ensures r == Some(Reiatsu) <==> s == "reiatsu"
    ensures r == Some(SoulFragments) <==> s == "soul_fragments"
    ensures r.None? <==> s != "reiatsu" && s != "soul_fragments"
  {
    if s == "reiatsu" then Some(Reiatsu)
    else if s == "soul_fragments" then Some(SoulFragments)
    else None
  }
}

=== FILE: shop.dfy ===
/** The shop catalogue and the three admin commands that maintain it. Each
    command first reseeds an empty catalogue with the six default items
    (`InitShop`); the command functions below take the catalogue after that step. */
module Shop {
  import opened Model
  import opened Text

  type Catalogue = map<ItemId, ShopItem>

  datatype Change = Change(items: Catalogue, reply: Reply)

  /** An item as the defaults write it: purchasable, with no audit fields. */
  function Stocked(name: string, description: string, price: int, currency: Currency,
                   category: string, stock: int): ShopItem
  {
    ShopItem(name, description, price, currency, category, stock, true, None, None, None, None)
  }

  /** The catalogue `init_shop` writes when there is none. */
  function DefaultShop(): Catalogue
  {
    map[
      "shinigami_robes" := Stocked("\U{2694}\U{FE0F} Shinigami Robes",
        "Official Soul Reaper battle attire", 2000, Reiatsu, "equipment", 999),
      "spiritual_amplifier" := Stocked("\U{1F4AB} Spiritual Pressure Amplifier",
        "Boost your spiritual energy output", 5000, Reiatsu, "equipment", 999),
      "custom_title" := Stocked("\U{1F451} Custom Title",
        "Set a personalized title in your profile", 3000, Reiatsu, "cosmetic", 999),
      "hollow_mask" := Stocked("\U{1F479} Hollow Mask Fragment",
        "Rare fragment with mysterious power", 10, SoulFragments, "rare", 50),
      "stand_arrow" := Stocked("\U{1F3F9} Stand Arrow",
        "Mystical arrow that awakens Stand powers", 75, SoulFragments, "rare", 25),
      "hogyoku_shard" := Stocked("\U{1F48E} Hogyoku Shard",
        "Fragment of the legendary evolution orb", 50, SoulFragments, "rare", 10)
    ]
  }

  /** `init_shop`: an empty catalogue is replaced by the defaults, any other is kept. */
  function InitShop(c: Catalogue): Catalogue
  {
    if c == map[] then DefaultShop() else c
  }

  /** Every item costs something and has something in stock. */
  predicate ShopValid(c: Catalogue)
  {
    forall id :: id in c ==> c[id].price > 0 && c[id].stock > 0
  }

  /** The defaults are the six items of the bot's catalogue, each with a price and in stock. */
  lemma DefaultShopKeys()
    ensures DefaultShop().Keys == {"shinigami_robes", "spiritual_amplifier", "custom_title",
                                   "hollow_mask", "stand_arrow", "hogyoku_shard"}
  {
  }

  lemma DefaultShopValid()
    ensures "custom_title" in DefaultShop()
    ensures ShopValid(DefaultShop())
  {
  }

  /** Reseeding never leaves the catalogue empty, never touches a non-empty
      one, does nothing the second time, and keeps the catalogue valid. */
  lemma InitShopSpec(c: Catalogue)
    ensures InitShop(c) != map[]
    ensures c != map[] ==> InitShop(c) == c
    ensures InitShop(InitShop(c)) == InitShop(c)
    ensures ShopValid(c) ==> ShopValid(InitShop(c))
  {
    DefaultShopValid();
  }

  /** `additem`: refuses a taken id, text without `|`, an unknown currency and
      a price or stock that is not positive, in that order; otherwise adds a
      purchasable item in category "custom" whose name and description are the
      stripped text before and after the first `|`. */
  function AddItem(c: Catalogue, id: ItemId, price: int, currency: string, stock: int,
                   text: string, author: string, now: Timestamp): (r: Change)
    ensures r.reply == Err(DuplicateId) <==> id in c
    ensures r.reply == Err(BadFormat) <==> id !in c && '|' !in text
    ensures r.reply == Err(BadCurrency) <==> id !in c && '|' in text && ParseCurrency(currency).None?
    ensures r.reply == Err(NonPositiveAmount) <==>
              id !in c && '|' in text && ParseCurrency(currency).Some? && (price <= 0 || stock <= 0)
    ensures r.reply.Ok? <==>
              && id !in c && '|' in text && ParseCurrency(currency).Some?
              && price > 0 && stock > 0
    ensures r.reply.Err? ==> r.items == c
    ensures r.reply.Ok? ==> id in r.items && r.items == c[id := r.items[id]]
    ensures r.reply.Ok? ==>
              var item := r.items[id];
              && item.price == price && item.stock == stock
              && Some(item.currency) == ParseCurrency(currency)
              && item.category == "custom" && item.purchasable
              && item.createdBy == Some(author) && item.createdAt == Some(now)
              && item.lastEdited.None? && item.lastEditedBy.None?
  {
    if id in c then Change(c, Err(DuplicateId))
    else if '|' !in text then Change(c, Err(BadFormat))
    else if ParseCurrency(currency).None? then Change(c, Err(BadCurrency))
    else if price <= 0 || stock <= 0 then Change(c, Err(NonPositiveAmount))
    else
      var parts := SplitOnce(text, '|');
      var item := ShopItem(Strip(parts.0), Strip(parts.1), price, ParseCurrency(currency).value,
                           "custom", stock, true, Some(author), Some(now), None, None);
      Change(c[id := item], Ok)
  }

  /** The name and description of an added item are the text on either side
      of the first `|`, without surrounding whitespace: the name never
      contains a `|`, while the description may. */
  lemma AddItemText(c: Catalogue, id: ItemId, price: int, currency: string, stock: int,
                    text: string, author: string, now: Timestamp)
    requires AddItem(c, id, price, currency, stock, text, author, now).reply.Ok?
    ensures var item := AddItem(c, id, price, currency, stock, text, author, now).items[id];
            var parts := SplitOnce(text, '|');
            && item.name == Strip(parts.0) && item.description == Strip(parts.1)
            && '|' !in item.name
  {
    var head := SplitOnce(text, '|').0;
    var i, j := StripSlice(head);
    assert forall n :: i <= n < j ==> head[n] != '|';
  }

  /** The fields `edititem` accepts. */
  const EditableFields: set<string> := {"name", "description", "price", "currency", "stock", "purchasable"}

  /** The answers `edititem` reads as "purchasable", after lower-casing. */
  const YesWords: set<string> := {"true", "yes", "1", "on", "enable"}

  /** `edititem`: refuses an unknown id and a field outside the editable ones;
      price and stock must read as a positive integer and currency must be one
      of the two currencies; purchasable is set to whether the lower-cased value
      is one of the yes-words; name and description take the value as given.
      An accepted edit also records when and by whom. */
  function EditItem(c: Catalogue, id: ItemId, field: string, value: string,
                    author: string, now: Timestamp): (r: Change)
    ensures r.reply == Err(NotFound) <==> id !in c
    ensures r.reply == Err(BadField) <==> id in c && field !in EditableFields
    ensures r.reply == Err(NotANumber) <==>
              id in c && (field == "price" || field == "stock") && ParseInt(value).None?
    ensures r.reply == Err(NonPositiveAmount) <==>
              && id in c && (field == "price" || field == "stock")
              && ParseInt(value).Some? && ParseInt(value).value <= 0
    ensures r.reply == Err(BadCurrency) <==>
              id in c && field == "currency" && ParseCurrency(value).None?
    ensures r.reply.Ok? <==>
              && id in c && field in EditableFields
              && ((field == "price" || field == "stock") ==> ParseInt(value).Some? && ParseInt(value).value > 0)
              && (field == "currency" ==> ParseCurrency(value).Some?)
    ensures r.reply.Err? ==> r.items == c
    ensures r.reply.Ok? ==> id in r.items && r.items == c[id := r.items[id]]
  {
    if id !in c then Change(c, Err(NotFound))
    else if field !in EditableFields then Change(c, Err(BadField))
    else
      var item := c[id];
      if field == "price" || field == "stock" then
        match ParseInt(value)
        case None => Change(c, Err(NotANumber))
        case Some(n) =>
          if n <= 0 then Change(c, Err(NonPositiveAmount))
          else Stamped(c, id, if field == "price" then item.(price := n) else item.(stock := n), author, now)
      else if field == "currency" then
        match ParseCurrency(value)
        case None => Change(c, Err(BadCurrency))
        case Some(cur) => Stamped(c, id, item.(currency := cur), author, now)
      else if field == "purchasable" then
        Stamped(c, id, item.(purchasable := Lower(value) in YesWords), author, now)
      else if field == "name" then Stamped(c, id, item.(name := value), author, now)
      else Stamped(c, id, item.(description := value), author, now)
  }

  /** An accepted edit: the item stored under `id`, with the edit's time and author recorded. */
  function Stamped(items: Catalogue, id: ItemId, item: ShopItem, author: string, now: Timestamp): Change
  {
    Change(items[id := item.(lastEdited := Some(now), lastEditedBy := Some(author))], Ok)
  }

  /** What an accepted edit does to the item: the named field takes the new
      value (read as a number, a currency or a yes-word as the field needs),
      the time and author of the edit are recorded, and every other field is
      left as it was. */
  lemma EditItemEffect(c: Catalogue, id: ItemId, field: string, value: string,
                       author: string, now: Timestamp)
    requires EditItem(c, id, field, value, author, now).reply.Ok?
    ensures var before := c[id];
            var after := EditItem(c, id, field, value, author, now).items[id];
            && field in EditableFields
            && after.lastEdited == Some(now) && after.lastEditedBy == Some(author)
            && (field == "price" ==>
                  ParseInt(value) == Some(after.price) && after.price > 0
                  && after.(price := before.price, lastEdited := before.lastEdited,
                            lastEditedBy := before.lastEditedBy) == before)
            && (field == "stock" ==>
                  ParseInt(value) == Some(after.stock) && after.stock > 0
                  && after.(stock := before.stock, lastEdited := before.lastEdited,
                            lastEditedBy := before.lastEditedBy) == before)
            && (field == "currency" ==>
                  ParseCurrency(value) == Some(after.currency)
                  && after.(currency := before.currency, lastEdited := before.lastEdited,
                            lastEditedBy := before.lastEditedBy) == before)
            && (field == "purchasable" ==>
                  (after.purchasable <==> Lower(value) in YesWords)
                  && after.(purchasable := before.purchasable, lastEdited := before.lastEdited,
                            lastEditedBy := before.lastEditedBy) == before)
            && (field == "name" ==>
                  after.name == value
                  && after.(name := before.name, lastEdited := before.lastEdited,
                            lastEditedBy := before.lastEditedBy) == before)
            && (field == "description" ==>
                  after.description == value
                  && after.(description := before.description, lastEdited := before.lastEdited,
                            lastEditedBy := before.lastEditedBy) == before)
  {
  }

  /** Writing a positive price in decimal and editing it in sets exactly that price. */
  lemma EditPriceReadsBack(c: Catalogue, id: ItemId, price: int, author: string, now: Timestamp)
    requires id in c && price > 0
    ensures EditItem(c, id, "price", ShowInt(price), author, now).reply.Ok?
    ensures EditItem(c, id, "price", ShowInt(price), author, now).items[id].price == price
  {
    ParseShowInt(price);
  }

  /** The purchasable flag does not depend on the letter case of the answer. */
  lemma PurchasableIgnoresCase(c: Catalogue, id: ItemId, value: string, author: string, now: Timestamp)
    requires id in c
    ensures EditItem(c, id, "purchasable", value, author, now)
            == EditItem(c, id, "purchasable", Lower(value), author, now)
  {
    LowerIdempotent(value);
  }

  /** `removeitem`: refuses an unknown id; otherwise the item is gone and every other item is kept. */
  function RemoveItem(c: Catalogue, id: ItemId): (r: Change)
    ensures r.reply.Err? <==> id !in c
    ensures r.reply.Err? ==> r.reply == Err(NotFound) && r.items == c
    ensures r.reply.Ok? ==>
              && r.items.Keys == c.Keys - {id}
              && forall k :: k in r.items ==> r.items[k] == c[k]
  {
    if id !in c then Change(c, Err(NotFound)) else Change(c - {id}, Ok)
  }

  lemma WithoutNewKey(c: Catalogue, id: ItemId, item: ShopItem)
    requires id !in c
    ensures c[id := item] - {id} == c
  {
  }

  /** Removing an item just added gives back the catalogue it was added to. */
  lemma AddThenRemove(c: Catalogue, id: ItemId, price: int, currency: string, stock: int,
                      text: string, author: string, now: Timestamp)
    requires AddItem(c, id, price, currency, stock, text, author, now).reply.Ok?
    ensures RemoveItem(AddItem(c, id, price, currency, stock, text, author, now).items, id)
            == Change(c, Ok)
  {
    var added := AddItem(c, id, price, currency, stock, text, author, now).items;
    WithoutNewKey(c, id, added[id]);
  }

  /** Removing the last item empties the catalogue, and the next command finds the six defaults again. */
  lemma RemovingLastItemReseeds(c: Catalogue, id: ItemId)
    requires c.Keys == {id}
    ensures RemoveItem(c, id).reply.Ok?
    ensures InitShop(RemoveItem(c, id).items) == DefaultShop()
  {
    assert RemoveItem(c, id).items.Keys == {};
  }

  /** The three catalogue commands keep every price and stock positive. */
  lemma AddItemKeepsValid(c: Catalogue, id: ItemId, price: int, currency: string, stock: int,
                          text: string, author: string, now: Timestamp)
    requires ShopValid(c)
    ensures ShopValid(AddItem(c, id, price, currency, stock, text, author, now).items)
  {
  }

  lemma EditItemKeepsValid(c: Catalogue, id: ItemId, field: string, value: string,
                           author: string, now: Timestamp)
    requires ShopValid(c)
    ensures ShopValid(EditItem(c, id, field, value, author, now).items)
  {
    if EditItem(c, id, field, value, author, now).reply.Ok? {
      EditItemEffect(c, id, field, value, author, now);
    }
  }

  lemma RemoveItemKeepsValid(c: Catalogue, id: ItemId)
    requires ShopValid(c)
    ensures ShopValid(RemoveItem(c, id).items)
  {
  }
}

=== FILE: sums.dfy ===
/** Sums of an integer-valued function over a finite set of keys: the running
    totals of the ledger (stake per team, money held by all users) are such sums. */
module Sums {

  ghost function SumOver<K>(keys: set<K>, f: K -> int): int
    decreases keys
  {
    if keys == {} then 0
    else
      var k :| k in keys;
      f(k) + SumOver(keys - {k}, f)
  }

  /** Any key may be taken out first, whichever one the definition picks. */
  lemma {:induction false} SumOverRemove<K>(keys: set<K>, f: K -> int, k: K)
    requires k in keys
    ensures SumOver(keys, f) == f(k) + SumOver(keys - {k}, f)
    decreases keys
  {
    var j :| j in keys && SumOver(keys, f) == f(j) + SumOver(keys - {j}, f);
    if j != k {
      SumOverRemove(keys - {j}, f, k);
      SumOverRemove(keys - {k}, f, j);
      assert keys - {j} - {k} == keys - {k} - {j};
    }
  }

  lemma {:induction false} SumOverPointwise<K>(keys: set<K>, f: K -> int, g: K -> int)
    requires forall k :: k in keys ==> f(k) == g(k)
    ensures SumOver(keys, f) == SumOver(keys, g)
    decreases keys
  {
    if keys != {} {
      var k :| k in keys;
      SumOverRemove(keys, f, k);
      SumOverRemove(keys, g, k);
      SumOverPointwise(keys - {k}, f, g);
    }
  }

  lemma {:induction false} SumOverAdd<K>(keys: set<K>, f: K -> int, g: K -> int, h: K -> int)
    requires forall k :: k in keys ==> h(k) == f(k) + g(k)
    ensures SumOver(keys, h) == SumOver(keys, f) + SumOver(keys, g)
    decreases keys
  {
    if keys != {} {
      var k :| k in keys;
      SumOverRemove(keys, f, k);
      SumOverRemove(keys, g, k);
      SumOverRemove(keys, h, k);
      SumOverAdd(keys - {k}, f, g, h);
    }
  }

  /** Keys where the function is zero do not contribute. */
  lemma {:induction false} SumOverZeroOutside<K>(big: set<K>, small: set<K>, f: K -> int)
    requires small <= big
    requires forall k :: k in big && k !in small ==> f(k) == 0
    ensures SumOver(big, f) == SumOver(small, f)
    decreases big
  {
    if big != small {
      var k :| k in big && k !in small;
      SumOverRemove(big, f, k);
      SumOverZeroOutside(big - {k}, small, f);
    }
  }

  /** Changing the function at one key changes the sum by the difference there. */
  lemma SumOverChangeOne<K>(keys: set<K>, f: K -> int, g: K -> int, k: K)
    requires k in keys
    requires forall j :: j in keys && j != k ==> f(j) == g(j)
    ensures SumOver(keys, g) == SumOver(keys, f) - f(k) + g(k)
  {
    SumOverRemove(keys, f, k);
    SumOverRemove(keys, g, k);
    SumOverPointwise(keys - {k}, f, g);
  }

  /** Adding a fresh key adds its value. */
  lemma SumOverInsert<K>(keys: set<K>, f: K -> int, g: K -> int, k: K)
    requires k !in keys
    requires forall j :: j in keys ==> f(j) == g(j)
    ensures SumOver(keys + {k}, g) == SumOver(keys, f) + g(k)
  {
    SumOverRemove(keys + {k}, g, k);
    assert keys + {k} - {k} == keys;
    SumOverPointwise(keys, f, g);
  }
}

=== FILE: text.dfy ===
/** The few string operations of Python that the commands rely on:
    `str.isspace`/`str.strip`, `str.lower` (ASCII letters), `str.split(sep, 1)`
    and `int(str)` in base 10. */
module Text {
  import opened Model

  /** The characters for which Python's `str.isspace()` holds. */
  predicate IsSpace(c: char)
  {
    || c == ' ' || c == '\t' || c == '\n' || c == '\r'
    || c == '\U{0B}' || c == '\U{0C}'
    || ('\U{1C}' <= c <= '\U{1F}')
    || c == '\U{85}' || c == '\U{A0}' || c == '\U{1680}'
    || ('\U{2000}' <= c <= '\U{200A}')
    || c == '\U{2028}' || c == '\U{2029}' || c == '\U{202F}' || c == '\U{205F}' || c == '\U{3000}'
  }

  /** Leading whitespace removed: what is left is a suffix of `s` starting with a non-space. */
  function TrimStart(s: string): (r: string)
    ensures |r| <= |s| && r == s[|s| - |r|..]
    ensures forall k :: 0 <= k < |s| - |r| ==> IsSpace(s[k])
    ensures r == [] || !IsSpace(r[0])
  {
    if |s| > 0 && IsSpace(s[0]) then TrimStart(s[1..]) else s
  }

  /** Trailing whitespace removed: what is left is a prefix of `s` ending with a non-space. */
  function TrimEnd(s: string): (r: string)
    ensures |r| <= |s| && r == s[..|r|]
    ensures forall k :: |r| <= k < |s| ==> IsSpace(s[k])
    ensures r == [] || !IsSpace(r[|r| - 1])
  {
    if |s| > 0 && IsSpace(s[|s| - 1]) then TrimEnd(s[..|s| - 1]) else s
  }

  /** Python's `s.strip()`: what is left neither starts nor ends with a space. */
  function Strip(s: string): (r: string)
    ensures |r| <= |s|
    ensures r == [] || (!IsSpace(r[0]) && !IsSpace(r[|r| - 1]))
  {
    var t := TrimStart(s);
    var r := TrimEnd(t);
    assert r != [] ==> r[0] == t[0];
    r
  }

  /** `Strip` cuts a slice out of `s`, and only spaces are cut away. */
  lemma StripSlice(s: string) returns (i: nat, j: nat)
    ensures i <= j <= |s| && Strip(s) == s[i..j]
    ensures forall k :: 0 <= k < i ==> IsSpace(s[k])
    ensures forall k :: j <= k < |s| ==> IsSpace(s[k])
  {
    var t := TrimStart(s);
    var r := TrimEnd(t);
    i := |s| - |t|;
    j := i + |r|;
    assert r == t[..|r|];
    assert t == s[i..];
    forall k | j <= k < |s| ensures IsSpace(s[k]) {
      assert s[k] == t[k - i];
    }
  }

  /** A string that neither starts nor ends with a space is left as it is. */
  lemma StripKeepsTrimmed(s: string)
    requires s == [] || (!IsSpace(s[0]) && !IsSpace(s[|s| - 1]))
    ensures Strip(s) == s
  {
  }

  /** Stripping twice is stripping once. */
  lemma StripIdempotent(s: string)
    ensures Strip(Strip(s)) == Strip(s)
  {
    StripKeepsTrimmed(Strip(s));
  }

  function LowerChar(c: char): (d: char)
  {
    if 'A' <= c <= 'Z' then (c as int + 32) as char else c
  }

  /** Python's `s.lower()`, restricted to the ASCII letters. */
  function Lower(s: string): (r: string)
    ensures |r| == |s|
    ensures forall i :: 0 <= i < |s| ==> r[i] == LowerChar(s[i])
  {
    if s == [] then [] else [LowerChar(s[0])] + Lower(s[1..])
  }

  lemma LowerIdempotent(s: string)
    ensures Lower(Lower(s)) == Lower(s)
  {
    assert forall i :: 0 <= i < |s| ==> Lower(Lower(s))[i] == Lower(s)[i];
  }

  /** Index of the first occurrence of `c` in `s`. */
  function FirstIndex(s: string, c: char): (i: nat)
    requires c in s
    ensures i < |s| && s[i] == c
    ensures forall k :: 0 <= k < i ==> s[k] != c
  {
    if s[0] == c then 0 else 1 + FirstIndex(s[1..], c)
  }

  /** Python's `s.split(sep, 1)` when `sep` occurs in `s`. */
  function SplitOnce(s: string, sep: char): (r: (string, string))
    requires sep in s
    ensures r.0 + [sep] + r.1 == s
    ensures sep !in r.0
  {
    var i := FirstIndex(s, sep);
    assert s == s[..i] + [sep] + s[i + 1..];
    (s[..i], s[i + 1..])
  }

  predicate IsDigit(c: char)
  {
    '0' <= c <= '9'
  }

  function DigitValue(c: char): (v: nat)
    requires IsDigit(c)
    ensures v < 10
  {
    c as int - '0' as int
  }

  function DigitChar(d: nat): (c: char)
    requires d < 10
    ensures IsDigit(c) && DigitValue(c) == d
  {
    ('0' as int + d) as char
  }

  predicate AllDigits(s: string)
  {
    forall i :: 0 <= i < |s| ==> IsDigit(s[i])
  }

  predicate DigitsOrUnderscores(s: string)
  {
    forall i :: 0 <= i < |s| ==> IsDigit(s[i]) || s[i] == '_'
  }

  /** The digits Python's `int()` accepts in base 10: a digit first and last,
      and any underscore standing alone between two digits. */
  predicate WellFormedDigits(s: string)
  {
    && |s| > 0
    && IsDigit(s[0])
    && DigitsOrUnderscores(s)
    && forall i :: 0 <= i < |s| && s[i] == '_' ==> i + 1 < |s| && IsDigit(s[i + 1])
  }

  function DropUnderscores(s: string): (r: string)
    ensures DigitsOrUnderscores(s) ==> AllDigits(r)
    ensures AllDigits(s) ==> r == s
  {
    if s == [] then []
    else (if s[0] == '_' then [] else [s[0]]) + DropUnderscores(s[1..])
  }

  /** The value of a string of decimal digits, most significant first. */
  function DecimalValue(s: string): nat
    requires AllDigits(s)
  {
    if s == [] then 0 else 10 * DecimalValue(s[..|s| - 1]) + DigitValue(s[|s| - 1])
  }

  /** `int()` after the surrounding whitespace is gone: an optional sign, then
      well-formed decimal digits. */
  function ParseSigned(t: string): (r: Option<int>)
  {
    var negative := |t| > 0 && t[0] == '-';
    var body := if |t| > 0 && (t[0] == '-' || t[0] == '+') then t[1..] else t;
    if WellFormedDigits(body) then
      var v: int := DecimalValue(DropUnderscores(body));
      Some(if negative then -v else v)
    else None
  }

  /** Python's `int(s)` on a string: surrounding whitespace, an optional sign,
      then well-formed decimal digits; anything else is a `ValueError` (`None`). */
  function ParseInt(s: string): (r: Option<int>)
    ensures r.Some? && r.value < 0 ==> |Strip(s)| > 1 && Strip(s)[0] == '-'
    ensures |s| > 0 && AllDigits(s) ==> r == Some(DecimalValue(s))
  {
    if |s| > 0 && AllDigits(s) then
      StripKeepsTrimmed(s);
      ParseDigits(s);
      ParseSigned(Strip(s))
    else ParseSigned(Strip(s))
  }

  /** The decimal form of a natural number, as Python's `str` writes it. */
  function ShowNat(n: nat): (s: string)
    ensures |s| > 0 && AllDigits(s)
  {
    if n < 10 then [DigitChar(n)] else ShowNat(n / 10) + [DigitChar(n % 10)]
  }

  function ShowInt(n: int): (s: string)
  {
    if n < 0 then "-" + ShowNat(-n) else ShowNat(n)
  }

  lemma {:induction false} DecimalValueOfShowNat(n: nat)
    ensures DecimalValue(ShowNat(n)) == n
  {
    if n >= 10 {
      var s := ShowNat(n);
      assert s[..|s| - 1] == ShowNat(n / 10);
      DecimalValueOfShowNat(n / 10);
    }
  }

  lemma AllDigitsWellFormed(d: string)
    requires |d| > 0 && AllDigits(d)
    ensures WellFormedDigits(d) && DropUnderscores(d) == d
  {
  }

  /** A non-empty run of digits reads as its decimal value. */
  lemma ParseDigits(d: string)
    requires |d| > 0 && AllDigits(d)
    ensures ParseSigned(d) == Some(DecimalValue(d))
  {
    AllDigitsWellFormed(d);
    assert IsDigit(d[0]);
  }

  /** A minus sign before a non-empty run of digits negates its value. */
  lemma ParseNegatedDigits(t: string)
    requires |t| > 1 && t[0] == '-' && AllDigits(t[1..])
    ensures ParseSigned(t) == Some(-(DecimalValue(t[1..]) as int))
  {
    AllDigitsWellFormed(t[1..]);
  }

  /** `str` never writes surrounding whitespace. */
  lemma ShowIntTrimmed(n: int)
    ensures Strip(ShowInt(n)) == ShowInt(n)
  {
    var s := ShowInt(n);
    var digits := ShowNat(if n < 0 then -n else n);
    assert s[|s| - 1] == digits[|digits| - 1];
    StripKeepsTrimmed(s);
  }

  lemma ShowNegativeForm(n: int)
    requires n < 0
    ensures |ShowInt(n)| > 1 && ShowInt(n)[0] == '-' && ShowInt(n)[1..] == ShowNat(-n)
  {
  }

  lemma ParseShowNegative(n: int)
    requires n < 0
    ensures ParseInt(ShowInt(n)) == Some(n)
  {
    ShowIntTrimmed(n);
    ShowNegativeForm(n);
    ParseNegatedDigits(ShowInt(n));
    DecimalValueOfShowNat(-n);
  }

  lemma ParseShowNonNegative(n: nat)
    ensures ParseInt(ShowInt(n)) == Some(n)
  {
    assert ShowInt(n) == ShowNat(n);
    DecimalValueOfShowNat(n);
  }

  /** `int(str(n)) == n`: the parser reads back every number written in decimal. */
  lemma ParseShowInt(n: int)
    ensures ParseInt(ShowInt(n)) == Some(n)
  {
    if n < 0 {
      ParseShowNegative(n);
    } else {
      ParseShowNonNegative(n);
    }
  }
}
